=== FILE: README.md ===
# UWB loggers and panning listener, modelled in Dafny

This project models three small programs from a Raspberry Pi audio/UWB
repository. Each is modelled as a set of pure functions over immutable data,
and the project proves what each program promises.

- **The vectoriser** (`vectorise-2bp-serial.py`) reads the text lines a
  Murata/NXP Type-2BP UWB module prints over UART. It picks out each anchor's
  `distance`, `aoa_azimuth` and `aoa_elevation` reports with three regular
  expressions. Once an anchor has all three, it turns them into a local
  Cartesian vector and rotates that vector into the room frame by the anchor's
  configured pose. It buffers the samples and writes them to a new file once
  the current file is a second old or holds 200 samples. The final flush in
  `finally` writes whatever is still buffered.
- **The filter** (`filter-2bp-serial.py`) reads the same stream with
  id-agnostic patterns. It keeps the first captured text for each of the three
  fields and prints a line once all three are present, then starts again.
- **The panning listener** (`syncronised-panning-test/rpi_listener.py`) runs on
  each of two Pis.
  - On `start` it sets the ALSA volume to 20% and starts a looping `mpg123`
    player.
  - On `left` or `right` it moves its volume 10 points toward or away from
    this Pi, clamped to [0, 100].
  - It reads the current volume as the first `[N%]` in the output of
    `amixer sget`, trying the controls Headphone, Master, PCM and Digital in
    that order, and sets the new volume through the same list of controls.

Modules follow the programs:

| module | what it models |
|---|---|
| `Wrappers` | `Option` |
| `Text` | character classes; greedy runs; decimal digit strings |
| `FieldGrammar` | the report regexes and `re.search` |
| `FloatParse` | Python's `float()` on the captured text |
| `Vectors` | the local vector; `rot_zyx`; `apply_R` |
| `Assembler` | the `pending` dictionary; the completion sweep |
| `BatchWriter` | `buf`, `flush()` and the age-or-size check |
| `Pipeline` | one loop iteration; the run; the final flush |
| `Collector` | the filter's loop |
| `Panning` | `amixer_set`, `amixer_get`, `Player` and `handle_cmd` |

Several things the programs get from outside become inputs to the model:

- trigonometry is a function from degrees to a (cos, sin) pair;
- the clock is one integer nanosecond reading per line;
- whether a file write succeeds is one boolean per line;
- the `amixer` exit codes and outputs are functions of the control name;
- whether `mpg123` is installed is a boolean.

Two behaviours of the code are easy to misread, and the model follows the code
in both:

- A number that `float()` rejects (`-`, `1.2.3`) is not skipped as a
  non-match. It raises `ValueError`, which leaves the loop (in the model, the
  only way a number ends it; see Left out for `inf`); only the final
  flush still runs. The same happens to an anchor id of more than 4300
  digits, which `int()` refuses to convert.
- All three patterns are searched on every line, so a line carrying several
  reports updates several fields.

## Model

| member | source | states |
|---|---|---|
| `FieldGrammar.MatchAt` | vectorise-2bp-serial.py:55-57 | the pattern anchored at one position with greedy runs; `FieldGrammar.MatchAtSound` and `FieldGrammar.MatchAtComplete` show it finds exactly the matches starting there |
| `FieldGrammar.Search` | vectorise-2bp-serial.py:55-57 | a result is a full layout of the pattern (`TWR[`, digits, attribute name, blanks, colon, blanks, value run) and no earlier position matches; no result means the pattern matches at no position |
| `FieldGrammar.SearchLeftmost` | vectorise-2bp-serial.py:55-57 | in terms of the pattern alone: no match starts left of the one found, and nothing is found exactly when the line holds no match at all |
| `FieldGrammar.MatchAtComplete` | vectorise-2bp-serial.py:55-57 | every match of the pattern is the one the greedy matcher finds at its start, so backtracking cannot produce another |
| `FieldGrammar.MatchAtSound` | vectorise-2bp-serial.py:55-57 | what the greedy matcher finds at a position is a match of the pattern starting there |
| `FieldGrammar.SpansOfMatch` | vectorise-2bp-serial.py:55-57 | under any match, each greedy run (id digits, blanks, value) ends exactly where the match says it does |
| `FieldGrammar.IdText` | vectorise-2bp-serial.py:55-57 | group 1 is a non-empty run of decimal digits |
| `FieldGrammar.AnchorId` | vectorise-2bp-serial.py:152 | `int(m.group(1))`: nothing, where `int()` raises, exactly when group 1 has more than 4300 digits; otherwise the decimal value of group 1, below 10 to the number of its digits |
| `Text.DigitsLeadingZero` | vectorise-2bp-serial.py:152 | `int()` ignores leading zeros, so `TWR[007]` and `TWR[7]` name the same anchor |
| `FieldGrammar.ValueText` | vectorise-2bp-serial.py:55-57 | group 2 is non-empty and made only of `-`, digits and `.` |
| `FloatParse.ParseFloat` | vectorise-2bp-serial.py:152 | a negative value comes only from text with a leading `-` |
| `FloatParse.ParseFloatAccepts` | vectorise-2bp-serial.py:152 | `float()` succeeds on exactly the texts of the grammar: an optional single `-`, then digits with at most one `.` and at least one digit |
| `FloatParse.ParseNegated` | vectorise-2bp-serial.py:152 | a leading `-` negates the value of the rest, or fails with it |
| `FloatParse.ParseInteger` | vectorise-2bp-serial.py:152 | a digit run reads as its integer value |
| `FloatParse.ParseNegativeInteger` | vectorise-2bp-serial.py:152 | `-` followed by a digit run reads as the negated integer |
| `FloatParse.ParseFraction` | vectorise-2bp-serial.py:152 | `ip.fp` reads as the integer part plus `fp / 10^len(fp)`, including `1.` and `.5` |
| `FloatParse.UnsignedAccepts` | vectorise-2bp-serial.py:152 | the unsigned scanner succeeds exactly on unsigned texts of the grammar |
| `FloatParse.ParseUnsigned` | vectorise-2bp-serial.py:152 | the unsigned scanner: digits, an optional `.` and fraction digits; `FloatParse.UnsignedAccepts` ties it to the grammar and `FloatParse.UnsignedInteger`/`FloatParse.UnsignedFraction` give its values |
| `Vectors.LocalVector` | vectorise-2bp-serial.py:61-76 | with exact cos/sin the local vector's length is the reported distance; its axes are fixed by `Vectors.LocalConvention` |
| `Vectors.LocalConvention` | vectorise-2bp-serial.py:62-75 | the axis convention: a report straight ahead lies on +x at the distance; a positive azimuth (right) gives negative y and a negative one positive y; a positive elevation (down) gives negative z and a negative one positive z; ahead-facing reports have positive x |
| `Vectors.Apply` | vectorise-2bp-serial.py:106-111 | `apply_R`, the matrix-vector product; characterised by `Vectors.ApplyIdentity` and `Vectors.ApplyMatMul` |
| `Vectors.RotZyx` | vectorise-2bp-serial.py:78-104 | `rot_zyx` entry by entry as the code computes it; characterised by `Vectors.RotZyxFactors` (it is `Rz(yaw)`, the code's pitch step, `Rx(-roll)`), `Vectors.RotZyxYawOnly`, `Vectors.RotZyxLevel` and the two counterexample lemmas |
| `Vectors.ApplyIdentity` | vectorise-2bp-serial.py:106-111 | `apply_R` with the pass-through matrix returns the vector unchanged |
| `Vectors.ApplyMatMul` | vectorise-2bp-serial.py:106-111 | applying a product of matrices is applying its factors in turn |
| `Vectors.RotZyxFactors` | vectorise-2bp-serial.py:78-104 | the code's `rot_zyx` equals `Rz(yaw)` times its pitch step times a roll by minus the roll angle |
| `Vectors.IntendedIsProduct` | vectorise-2bp-serial.py:79 | the corrected matrix is exactly the documented product `Rz(yaw) Ry(pitch) Rx(roll)` |
| `Vectors.RotZyxAllZero` | vectorise-2bp-serial.py:78-104 | all angles zero give the identity |
| `Vectors.RotZyxYawOnly` | vectorise-2bp-serial.py:78-104 | with zero pitch and roll both the code's and the documented matrix are the yaw rotation |
| `Vectors.RotZyxLevel` | vectorise-2bp-serial.py:78-104 | with zero pitch the code's matrix is a yaw rotation times a reversed roll |
| `Vectors.LevelPreservesNorm` | vectorise-2bp-serial.py:78-104 | with zero pitch the code's matrix keeps lengths |
| `Vectors.IntendedPreservesNorm` | vectorise-2bp-serial.py:79 | the documented product keeps lengths for every pose |
| `Vectors.PitchQuarterCollapses` | vectorise-2bp-serial.py:88-93 | at 90 degrees of pitch the code's matrix sends +Y to the zero vector, while the documented product keeps it |
| `Vectors.RollQuarterReversed` | vectorise-2bp-serial.py:94-103 | at 90 degrees of roll the code's matrix turns +Y to -Z instead of the right-handed +Z |
| `Assembler.SetField` | vectorise-2bp-serial.py:153-154 | storing a field replaces its value and leaves the other two alone |
| `Assembler.Find` | vectorise-2bp-serial.py:125 | a lookup finds an entry exactly when the id is among the pending ids |
| `Assembler.FindAt` | vectorise-2bp-serial.py:125 | with distinct ids, looking up an entry's id returns that entry |
| `Assembler.Update` | vectorise-2bp-serial.py:153-154 | `setdefault` then set: the anchor's entry (created at the end if new) gets the value under the field, other anchors are untouched, id order is kept |
| `Assembler.UpdateUnique` | vectorise-2bp-serial.py:153 | ids stay distinct under an update |
| `Assembler.Ready` | vectorise-2bp-serial.py:169-171 | the sweep emits only complete entries, all from `pending` |
| `Assembler.Keep` | vectorise-2bp-serial.py:197-198 | only incomplete entries stay after the pops |
| `Assembler.SweepAppend` | vectorise-2bp-serial.py:170 | both sides of the sweep keep `pending`'s order |
| `Assembler.SweepPartition` | vectorise-2bp-serial.py:169-198 | every entry goes to exactly one side: emitted or kept, as multisets |
| `Assembler.FilteredUnique` | vectorise-2bp-serial.py:169-198 | both sides keep ids distinct |
| `Assembler.SweepFind` | vectorise-2bp-serial.py:169-198 | an anchor is emitted with its fields exactly when its entry is complete, and then gone from `pending`; an incomplete entry stays as it was |
| `Assembler.SweepNoneComplete` | vectorise-2bp-serial.py:169-198 | with no complete entry nothing is emitted and `pending` is unchanged |
| `BatchWriter.Start` | vectorise-2bp-serial.py:130-132 | the writer starts with an empty buffer and no files |
| `BatchWriter.Flush` | vectorise-2bp-serial.py:134-144 | an empty buffer is a no-op (the age is not reset); otherwise the buffer becomes one file under the current name, and only a successful write empties it, resets the age and draws a new name; a failed write changes nothing |
| `BatchWriter.FlushIfDue` | vectorise-2bp-serial.py:200-201 | no flush unless the file is a second old or holds 200 samples; when due and the write succeeds the buffer becomes one file and is emptied; whenever the check succeeds the buffer holds fewer than 200 |
| `BatchWriter.Due` | vectorise-2bp-serial.py:200 | the file is at least one second old or holds at least 200 samples; used by `BatchWriter.FlushIfDue` |
| `BatchWriter.FlushConserves` | vectorise-2bp-serial.py:134-144 | files followed by buffer hold the same samples before and after a flush |
| `BatchWriter.AppendConserves` | vectorise-2bp-serial.py:194-201 | appending samples and running the check puts them after all earlier ones |
| `BatchWriter.FlushValid` | vectorise-2bp-serial.py:134-144 | file names stay strictly increasing and below the next name, and no file is empty |
| `BatchWriter.FlushIfDueValid` | vectorise-2bp-serial.py:194-201 | the same for append-then-check |
| `BatchWriter.FinalFlush` | vectorise-2bp-serial.py:205-207 | the `finally` flush keeps every sample; when it succeeds the files alone hold them all |
| `Pipeline.ReadField` | vectorise-2bp-serial.py:150-152 | no reading exactly when the search fails; otherwise id and value come from the leftmost match (`int` of group 1, `float` of group 2); a reading is found exactly when group 1 has at most 4300 digits and group 2 is in `float()`'s grammar; otherwise the text that raised is group 1 when it is too long (`int()` runs first) and group 2 else |
| `Pipeline.Readings` | vectorise-2bp-serial.py:150-164 | the three searches of a line, distance, azimuth, elevation; searching has no effect, so doing all three before acting on any is the code's interleaving; characterised through `Pipeline.ReadField` |
| `Pipeline.Absorb` | vectorise-2bp-serial.py:150-166 | absorbing a line's readings never drops a pending anchor |
| `Pipeline.AbsorbUnique` | vectorise-2bp-serial.py:153-165 | ids stay distinct across the three updates |
| `Pipeline.AbsorbRaises` | vectorise-2bp-serial.py:150-166 | the line raises exactly when one of its readings is malformed, with that reading's text |
| `Pipeline.AbsorbKeeps` | vectorise-2bp-serial.py:150-166 | later searches of other fields leave an anchor's field alone |
| `Pipeline.AbsorbLatest` | vectorise-2bp-serial.py:150-166 | after a line, each value it found is what its anchor holds for that field |
| `Pipeline.AbsorbFrame` | vectorise-2bp-serial.py:150-166 | readings that name other anchors leave an anchor's entry, or its absence, as it was |
| `Pipeline.AnchorMatrixAsWritten` | vectorise-2bp-serial.py:45-52 | for the four configured poses the corrected rotation equals the code's `rot_zyx`, both being the yaw rotation |
| `Pipeline.AnchorMatrix` | vectorise-2bp-serial.py:177-178 | the configured anchor's rotation, identity for any other anchor; `Pipeline.MakeSample` shows the global vector of an unconfigured anchor is its local vector, and `Pipeline.AnchorMatrixAsWritten` that configured anchors get the code's matrix |
| `Pipeline.MakeSample` | vectorise-2bp-serial.py:172-194 | a sample carries the anchor id, the clock and the entry's three values, the local vector of those values, and that vector rotated by the anchor's matrix, or the local vector itself when the anchor has no pose |
| `Pipeline.SampleLength` | vectorise-2bp-serial.py:174-178 | with exact trigonometry both the local and the global vector have the distance as length |
| `Pipeline.Samples` | vectorise-2bp-serial.py:169-195 | one sample per completed entry, in `pending` order |
| `Pipeline.SampleCarries` | vectorise-2bp-serial.py:180-193 | the i-th sample holds the i-th completed entry's id and values |
| `Pipeline.Init` | vectorise-2bp-serial.py:125-132 | the loop starts in a state satisfying the invariant |
| `Pipeline.StepInv` | vectorise-2bp-serial.py:146-201 | each line keeps ids distinct, `pending` free of complete entries, the buffer below 200 and names fresh; an exit leaves a sound writer |
| `Pipeline.StepConserves` | vectorise-2bp-serial.py:150-201 | a line only appends its own samples after the earlier ones in files-then-buffer, on every exit path |
| `Pipeline.StepOn` | vectorise-2bp-serial.py:150-201 | one loop iteration once the three searches are done; characterised by `Pipeline.StepInv`, `Pipeline.StepConserves`, `Pipeline.NoMatchReadings`, `Pipeline.BadNumberReadings`, `Pipeline.LatestReading` and `Pipeline.UntouchedReadings` |
| `Pipeline.Step` | vectorise-2bp-serial.py:146-201 | one loop iteration on a line as read; characterised by `Pipeline.NoMatchLine`, `Pipeline.BadNumberAborts`, `Pipeline.LatestValueWins` and `Pipeline.UntouchedAnchor` |
| `Pipeline.Run` | vectorise-2bp-serial.py:146-203 | the loop until the input ends or an exception leaves it; characterised by `Pipeline.RunConserves` and `Pipeline.RunValid` |
| `Pipeline.Main` | vectorise-2bp-serial.py:119-208 | start-up, the loop and the flush in `finally`; characterised by `Pipeline.MainNoLoss` |
| `Pipeline.RunConserves` | vectorise-2bp-serial.py:146-201 | over any run, files-then-buffer grows by exactly the samples emitted, in order |
| `Pipeline.RunValid` | vectorise-2bp-serial.py:146-201 | names stay fresh over a run, and the buffer stays below 200 unless the run ended on an error |
| `Pipeline.RunFromStart` | vectorise-2bp-serial.py:119-201 | from a state with no files and an empty buffer (start-up), files-then-buffer hold exactly the samples emitted, and names stay fresh |
| `Pipeline.MainNoLoss` | vectorise-2bp-serial.py:119-207 | whatever ends the loop (interrupt, bad number, failed write), after the final flush files-then-buffer hold every emitted sample exactly once, in order, and a successful final flush leaves them all in files |
| `Pipeline.NoMatchLine` | vectorise-2bp-serial.py:150-201 | a line matching none of the patterns emits nothing and leaves `pending` unchanged; only a failed flush can stop the loop; unless the file is due, the whole state stays as it was |
| `Pipeline.NoMatchReadings` | vectorise-2bp-serial.py:150-201 | the same, once the three searches have found nothing |
| `Pipeline.UntouchedReadings` | vectorise-2bp-serial.py:153-198 | after a line that goes on, an anchor no reading names keeps its entry, or its absence |
| `Pipeline.UntouchedAnchor` | vectorise-2bp-serial.py:150-198 | the same for a line as read: only the anchors its reports name can change |
| `Pipeline.BadNumberAborts` | vectorise-2bp-serial.py:150-166 | in the model, the loop stops with `ValueError` at the readings exactly when a captured id has more than 4300 digits or a captured value is outside `float()`'s grammar (the program's other `ValueError` exit, through `inf`, is under Left out); that line emits nothing and leaves the writer as it was |
| `Pipeline.BadNumberReadings` | vectorise-2bp-serial.py:150-166 | the same, once the three searches are done: in the model, a `ValueError` exit exactly when some reading is malformed, carrying a rejected text, with nothing emitted and the writer unchanged |
| `Pipeline.SweepLatest` | vectorise-2bp-serial.py:169-198 | after the sweep an anchor's value is either still pending or in the sample emitted for it |
| `Pipeline.LatestReading` | vectorise-2bp-serial.py:150-198 | a value found on a line is never lost: it is pending for its anchor, or the anchor left `pending` in a sample carrying it |
| `Pipeline.LatestValueWins` | vectorise-2bp-serial.py:150-198 | the same for a line as read: the last value seen for an anchor's field is the one pending or emitted |
| `Pipeline.QuietLineKeepsWriter` | vectorise-2bp-serial.py:134-136 | a line that emits nothing with an empty buffer leaves the writer as it was, even when due: an empty flush does not restart the file age |
| `Pipeline.DueLine` | vectorise-2bp-serial.py:200-201 | with an empty buffer and a file a second old, the line that emits samples writes exactly them as one file |
| `Pipeline.IdleGap` | vectorise-2bp-serial.py:134-144 | after an idle gap, the first samples are written at once as one file, even with a quiet line in between |
| `Collector.Capture` | filter-2bp-serial.py:18-20 | a capture exists exactly when the pattern matches, and is a non-empty run of value characters |
| `Collector.FillSlot` | filter-2bp-serial.py:33-46 | a filled slot is not searched again; an empty slot takes the line's capture or stays empty |
| `Collector.Fill` | filter-2bp-serial.py:33-46 | the three guarded searches of one line; characterised per slot by `Collector.FillSlot` |
| `Collector.StepOn` | filter-2bp-serial.py:33-53 | a line prints exactly when the three slots are full after it; then it prints their texts and empties them; otherwise the slots are the filled ones; at least one slot is empty afterwards |
| `Collector.Step` | filter-2bp-serial.py:28-53 | after any line at least one slot is empty |
| `Collector.FirstValueWins` | filter-2bp-serial.py:33-46 | a filled slot keeps its text until it is printed |
| `Collector.NoMatchUnchanged` | filter-2bp-serial.py:33-53 | a line with none of the fields changes nothing and prints nothing |
| `Collector.Run` | filter-2bp-serial.py:27-53 | after a run at least one slot is empty, and at most one line is printed per input line |
| `Collector.FirstCaptureSnoc` | filter-2bp-serial.py:33-46 | the first capture of a field over lines plus one more is the earlier first capture, or else the new line's |
| `Collector.QuietRun` | filter-2bp-serial.py:27-46 | until the first print each slot holds the first capture of its field since the start, whatever anchor it came from |
| `Collector.SlotIsFirst` | filter-2bp-serial.py:33-46 | the slots after the guarded searches of the next line are the first captures including that line |
| `Collector.FirstPrint` | filter-2bp-serial.py:49-53 | the first print happens exactly on the line where all three fields have been seen, and prints the first capture of each |
| `Panning.Clamp` | syncronised-panning-test/rpi_listener.py:13 | the result is in [0, 100], is the value itself inside the range and the nearer bound outside it |
| `Panning.ClampMonotone` | syncronised-panning-test/rpi_listener.py:71 | clamping keeps order and never widens a gap |
| `Panning.PercentAt` | syncronised-panning-test/rpi_listener.py:25-27 | a number read at one position is below 1000 |
| `Panning.ShapeRun` | syncronised-panning-test/rpi_listener.py:25 | the digits of a match are the whole digit run after the bracket |
| `Panning.PercentAtShape` | syncronised-panning-test/rpi_listener.py:25-27 | a `[`, one to three digits, `%]` at a position reads as the value of those digits |
| `Panning.PercentAtSound` | syncronised-panning-test/rpi_listener.py:25-27 | a number is read at a position only where `[`, one to three digits and `%]` lie there, and it is the value of those digits |
| `Panning.ParsePercentPattern` | syncronised-panning-test/rpi_listener.py:25-27 | in terms of the pattern alone: a number is read exactly when the text holds a match, and it is the digits of the leftmost match |
| `Panning.ParseFrom` | syncronised-panning-test/rpi_listener.py:25-27 | a number found from a position is below 1000 |
| `Panning.ParsePercent` | syncronised-panning-test/rpi_listener.py:25-27 | the number read from `amixer sget` output is below 1000 |
| `Panning.ParseFromNone` | syncronised-panning-test/rpi_listener.py:25 | the scan finds nothing exactly when no position from its start matches |
| `Panning.ParseFromLeftmost` | syncronised-panning-test/rpi_listener.py:25 | the scan reports the match at the leftmost matching position |
| `Panning.ParseFromAt` | syncronised-panning-test/rpi_listener.py:25 | the scan returns the match at the first position that matches |
| `Panning.ParsePercentFinds` | syncronised-panning-test/rpi_listener.py:25-27 | `re.search` finds a number exactly when some position matches, and it is the leftmost one |
| `Panning.NoBracketNoMatch` | syncronised-panning-test/rpi_listener.py:25 | text without `[` holds no match |
| `Panning.FirstField` | syncronised-panning-test/rpi_listener.py:25-27 | the first `[` opening a well-formed field decides the number read |
| `Panning.Layout` | syncronised-panning-test/rpi_listener.py:25 | where the parts of a rendered `[N%]` field lie in the text |
| `Panning.PercentRoundTrip` | syncronised-panning-test/rpi_listener.py:25-27 | a volume of one to three digits rendered as `[N%]` after text without `[` reads back as N |
| `Panning.SetFrom` | syncronised-panning-test/rpi_listener.py:14-18 | controls are tried in order and each issues one `sset`; the search stops at the first success; it fails only after all were tried, and succeeds exactly when some control accepts |
| `Panning.AmixerSet` | syncronised-panning-test/rpi_listener.py:12-18 | every volume requested is the clamped one, within [0, 100]; true exactly when some control accepts it |
| `Panning.Answer` | syncronised-panning-test/rpi_listener.py:22-27 | one `sget` reply: a volume only from a call that exited 0, and below 1000; which volume is `Panning.ParsePercentPattern`'s leftmost `[N%]` |
| `Panning.Answers` | syncronised-panning-test/rpi_listener.py:21-27 | one answer per control, in order, as each `sget` reply reads |
| `Panning.GetFrom` | syncronised-panning-test/rpi_listener.py:20-28 | controls are asked in order until one answers, and only those asked issue an `sget`; none read exactly when no control answers |
| `Panning.AmixerGet` | syncronised-panning-test/rpi_listener.py:20-28 | only `sget` commands are issued; the value is below 1000 (it is not clamped) and is the answer of the first control that gives one; none exactly when no control does |
| `Panning.Start` | syncronised-panning-test/rpi_listener.py:38-44 | a running player, or a missing `mpg123`, leaves the player as it was; otherwise it runs afterwards |
| `Panning.Stop` | syncronised-panning-test/rpi_listener.py:46-51 | after a stop no process is kept and nothing runs |
| `Panning.StartIdempotent` | syncronised-panning-test/rpi_listener.py:38-40 | starting twice is starting once |
| `Panning.RestartAfterStop` | syncronised-panning-test/rpi_listener.py:38-51 | after a stop, a start with `mpg123` installed brings up a fresh process |
| `Panning.Toward` | syncronised-panning-test/rpi_listener.py:70 | the pan goes toward this Pi: `left` on Pi 1 or `right` on Pi 2; used by `Panning.Decide` |
| `Panning.Decide` | syncronised-panning-test/rpi_listener.py:58-71 | `start` exactly when the command is `start`, ignored exactly when it is none of the three; an unreadable volume counts as 20; a pan sets exactly `max(0, min(100, current ± 10))`, plus 10 toward this Pi and minus 10 away, which lies within [0, 100] and at most 10 from the clamped current volume |
| `Panning.PanStep` | syncronised-panning-test/rpi_listener.py:70-71 | away from the limits a pan moves the volume by exactly one step |
| `Panning.OppositeSpeakers` | syncronised-panning-test/rpi_listener.py:70 | the two Pis move by the same non-zero amount in opposite directions on the same command |
| `Panning.LeftRightInverse` | syncronised-panning-test/rpi_listener.py:70-71 | away from the limits `left` then `right` returns a Pi to its volume |
| `Panning.HandleRead` | syncronised-panning-test/rpi_listener.py:58-75 | the action is the decision on the volume read; the reads come first, followed by exactly `amixer_set(20)` for `start`, `amixer_set` of the decided volume for a pan, and nothing for an unknown command; only `start` touches the player, starting it; no volume outside [0, 100] is requested |
| `Panning.HandleCmd` | syncronised-panning-test/rpi_listener.py:58-75 | the volume is always read first and the action is the decision on it; then exactly `amixer_set(20)` for `start`, `amixer_set` of the decided volume for a pan, nothing more for an unknown command; only `start` touches the player; every volume requested is within [0, 100] |
| `Panning.PanSetsVolume` | syncronised-panning-test/rpi_listener.py:59-75 | a pan requests exactly `max(0, min(100, current ± 10))` with `current` the volume read or 20, leaves the player alone, and succeeds exactly when some control accepts that volume |

## Left out

- Serial I/O, `decode(errors="ignore")` and `strip()`: each line enters the model as the text the loop sees.
- The `int()` digit limit is Python's default of 4300 digits, which holds from Python 3.11 and in the 3.10.7 and 3.9.14 releases. An interpreter without the limit, or one where `PYTHONINTMAXSTRDIGITS` or `sys.set_int_max_str_digits` sets another value, is not modelled.
- `Pipeline.BadNumberAborts` and `Pipeline.BadNumberReadings` do not cover the program's second `ValueError` exit. A value text that overflows a double (`1` and 400 zeros) is `inf` to `float()`. A finite angle of about 5.7e307 or more becomes `inf` in `deg2rad`'s `d * math.pi`. `math.cos`/`math.sin` of `inf` then raise inside `r_local_from_az_el`, in the middle of the sweep. Samples of anchors earlier in `pending` order are already buffered, and the pops never run. With exact reals and a total trigonometry parameter, the model emits a sample there and goes on.
- Floating point: numbers are exact reals. `float()` yields the exact decimal its text denotes, without rounding to a double. `deg2rad`, `cos` and `sin` are one function from degrees to a (cos, sin) pair, passed in as a parameter. Length facts assume that pair lies on the unit circle.
- `\d` and `\s` in Python match Unicode digits and blanks. Blanks are modelled as Python's whitespace set. Digits are ASCII only, so non-ASCII digits are not modelled, either in a UWB report or in the `[N%]` field of `amixer sget` output.
- File names are fresh counter tokens instead of UTC timestamps, so two flushes in the same millisecond never collide in the model. The JSON layout of a file, the `.tmp` file and the rename are one write that either succeeds or fails as a whole.
- Clock: the vectoriser reads the clock several times per line; the model uses one reading per line for the age check, the sample stamps and the age reset.
- `KeyboardInterrupt` is modelled as the input ending between two lines; an interrupt in the middle of a line is not modelled. `ser.close()` and all printing are left out. Any error of the final flush is only printed, so it appears as the flag `finalFlushOk`.
- `Pipeline.AnchorMatrix` uses the documented rotation. That is the corrected `rot_zyx` (see Findings); for the four configured poses it equals the code's matrix, by `Pipeline.AnchorMatrixAsWritten`.
- `amixer` and `mpg123` are not run. Their exit codes and outputs are parameters, and the commands issued are recorded. A missing `amixer` binary, which would raise from `subprocess.run`, is not modelled. `poll()` is a flag on the process, and `shutil.which` is the flag `mpgFound`.
- `Panning.Stop`: `terminate()`, the two-second wait and `kill()` are not modelled; the result is only that no process is kept.
- `Panning.AmixerGet`: the replies of all four controls are evaluated up front. Asking has no effect, and `issued` records only the controls the code actually asks, so this is equivalent.
- MQTT (`on_connect`, `on_message`, JSON payload parsing), the `execute_at` scheduling with `time.sleep`, and command-line parsing: `handle_cmd` is modelled from the moment a command for a given Pi is due.
- The other programs of the repository are not part of this model: `print-2bp-serial.py`, `switch_speakers.py`, the ranging test rig, and the broker and keyboard publishers.

## Findings

| source | as written | input that shows it | evidently intended | confidence | as-written member | corrected member |
|---|---|---|---|---|---|---|
| vectorise-2bp-serial.py:88-103 | the "Ry" step multiplies by a matrix with `cp` in the centre and the `sp` signs transposed, and the "Rx" step uses `-sr` where `+sr` belongs, so the product is `Rz(yaw) P(pitch) Rx(-roll)` and not a rotation for non-zero pitch | pitch 90 degrees, yaw and roll 0: the unit vector +Y maps to (0, 0, 0); roll 90 degrees: +Y maps to -Z | `Rz(yaw) Ry(pitch) Rx(roll)` as the docstring on line 79 says, a rotation that keeps lengths | high; not executed | `Vectors.RotZyxFactors`, `Vectors.PitchQuarterCollapses`, `Vectors.RollQuarterReversed` | `Vectors.RotZyxIntended`, `Vectors.IntendedIsProduct`, `Vectors.IntendedPreservesNorm` |

=== FILE: assembler.dfy ===
/**
  The per-anchor assembly of the vectoriser: `pending` maps an anchor id to the
  fields of its report received so far. A Python dict keeps insertion order,
  so it is modelled as a sequence of entries with pairwise distinct ids.
 */
module Assembler {
  import opened Wrappers
  import opened FieldGrammar

  /** The fields received for one anchor: distance `r`, azimuth `az`, elevation `el`. */
  datatype Partial = Partial(r: Option<real>, az: Option<real>, el: Option<real>)

  /** A freshly created entry, Python's `{}`. */
  const Blank: Partial := Partial(None, None, None)

  function Get(p: Partial, k: Kind): Option<real> {
    match k
    case Distance => p.r
    case Azimuth => p.az
    case Elevation => p.el
  }

  /** Stores `v` under `k`, replacing any earlier value, and leaves the other fields alone. */
  function SetField(p: Partial, k: Kind, v: real): (q: Partial)
    ensures Get(q, k) == Some(v)
    ensures forall k' :: k' != k ==> Get(q, k') == Get(p, k')
  {
    match k
    case Distance => p.(r := Some(v))
    case Azimuth => p.(az := Some(v))
    case Elevation => p.(el := Some(v))
  }

  /** All three fields are present: `all(k in st for k in ("r","az","el"))`. */
  predicate Complete(p: Partial) {
    forall k :: Get(p, k).Some?
  }

  datatype Entry = Entry(id: nat, fields: Partial)

  type Pending = seq<Entry>

  predicate UniqueIds(ps: Pending) {
    forall i, j :: 0 <= i < j < |ps| ==> ps[i].id != ps[j].id
  }

  function Ids(ps: Pending): (ids: seq<nat>)
    ensures |ids| == |ps|
    ensures forall i :: 0 <= i < |ps| ==> ids[i] == ps[i].id
  {
    if |ps| == 0 then [] else [ps[0].id] + Ids(ps[1..])
  }

  /** `pending.get(id)`. */
  function Find(ps: Pending, id: nat): (r: Option<Partial>)
    ensures r.Some? <==> id in Ids(ps)
  {
    if |ps| == 0 then None
    else if ps[0].id == id then Some(ps[0].fields)
    else Find(ps[1..], id)
  }

  /** With distinct ids, looking up an entry's id finds that entry. */
  lemma {:induction false} FindAt(ps: Pending, i: nat)
    requires UniqueIds(ps) && i < |ps|
    ensures Find(ps, ps[i].id) == Some(ps[i].fields)
  {
    if i > 0 {
      assert ps[1..][i - 1] == ps[i];
      FindAt(ps[1..], i - 1);
    }
  }

  /** A found entry is one of the list's entries, under the id looked for. */
  lemma {:induction false} FindWitness(ps: Pending, id: nat)
    requires Find(ps, id).Some?
    ensures exists i :: 0 <= i < |ps| && ps[i].id == id && ps[i].fields == Find(ps, id).value
  {
    if ps[0].id != id {
      FindWitness(ps[1..], id);
      var i :| 0 <= i < |ps[1..]| && ps[1..][i].id == id && ps[1..][i].fields == Find(ps[1..], id).value;
      assert ps[i + 1] == ps[1..][i];
    } else {
      assert ps[0].fields == Find(ps, id).value;
    }
  }

  lemma FindCons(e: Entry, ps: Pending, id: nat)
    ensures Find([e] + ps, id) == if e.id == id then Some(e.fields) else Find(ps, id)
  {
    assert ([e] + ps)[1..] == ps;
  }

  lemma IdsCons(e: Entry, ps: Pending)
    ensures Ids([e] + ps) == [e.id] + Ids(ps)
  {
  }

  /**
    `st = pending.setdefault(id, {}); st[k] = v`: the entry for `id` gets `v`
    under `k`, created at the end if it is new; every other entry is unchanged
    and the order of the ids is kept.
   */
  function Update(ps: Pending, id: nat, k: Kind, v: real): (qs: Pending)
    ensures Ids(qs) == if id in Ids(ps) then Ids(ps) else Ids(ps) + [id]
    ensures Find(qs, id) == Some(SetField(Find(ps, id).GetOr(Blank), k, v))
    ensures forall a :: a != id ==> Find(qs, a) == Find(ps, a)
  {
    if |ps| == 0 then
      [Entry(id, SetField(Blank, k, v))]
    else if ps[0].id == id then
      var qs := [Entry(id, SetField(ps[0].fields, k, v))] + ps[1..];
      assert ps == [ps[0]] + ps[1..];
      IdsCons(ps[0], ps[1..]);
      IdsCons(qs[0], ps[1..]);
      forall a ensures Find(qs, a) == if a == id then Some(qs[0].fields) else Find(ps, a) {
        FindCons(qs[0], ps[1..], a);
        FindCons(ps[0], ps[1..], a);
      }
      qs
    else
      var rest := Update(ps[1..], id, k, v);
      var qs := [ps[0]] + rest;
      assert ps == [ps[0]] + ps[1..];
      IdsCons(ps[0], ps[1..]);
      IdsCons(ps[0], rest);
      forall a ensures Find(qs, a) == if a == ps[0].id then Some(ps[0].fields) else Find(rest, a) {
        FindCons(ps[0], rest, a);
      }
      forall a ensures Find(ps, a) == if a == ps[0].id then Some(ps[0].fields) else Find(ps[1..], a) {
        FindCons(ps[0], ps[1..], a);
      }
      qs
  }

  /** Distinct ids stay distinct under `Update`. */
  lemma UpdateUnique(ps: Pending, id: nat, k: Kind, v: real)
    requires UniqueIds(ps)
    ensures UniqueIds(Update(ps, id, k, v))
  {
    var qs := Update(ps, id, k, v);
    var ids, jds := Ids(ps), Ids(qs);
    forall i, j | 0 <= i < j < |qs| ensures qs[i].id != qs[j].id {
      assert qs[i].id == jds[i] && qs[j].id == jds[j];
      if j == |ps| {
        assert jds[j] == id && jds[i] == ids[i];
      }
    }
  }

  /** The entries whose triple is complete, in `pending` order: the ones that emit a sample. */
  function Ready(ps: Pending): (es: Pending)
    ensures forall i :: 0 <= i < |es| ==> Complete(es[i].fields)
    ensures forall a :: a in Ids(es) ==> a in Ids(ps)
  {
    if |ps| == 0 then []
    else
      var rest := Ready(ps[1..]);
      IdsCons(ps[0], rest);
      assert ps == [ps[0]] + ps[1..];
      IdsCons(ps[0], ps[1..]);
      if Complete(ps[0].fields) then [ps[0]] + rest else rest
  }

  /** What stays in `pending` after the completed entries are popped. */
  function Keep(ps: Pending): (es: Pending)
    ensures forall i :: 0 <= i < |es| ==> !Complete(es[i].fields)
    ensures forall a :: a in Ids(es) ==> a in Ids(ps)
  {
    if |ps| == 0 then []
    else
      var rest := Keep(ps[1..]);
      IdsCons(ps[0], rest);
      assert ps == [ps[0]] + ps[1..];
      IdsCons(ps[0], ps[1..]);
      if Complete(ps[0].fields) then rest else [ps[0]] + rest
  }

  /**
    Both filters keep `pending` order: on an entry appended at the end they
    extend their result by that entry or by nothing.
   */
  lemma {:induction false} SweepAppend(ps: Pending, e: Entry)
    ensures Ready(ps + [e]) == Ready(ps) + (if Complete(e.fields) then [e] else [])
    ensures Keep(ps + [e]) == Keep(ps) + (if Complete(e.fields) then [] else [e])
  {
    if |ps| > 0 {
      assert (ps + [e])[1..] == ps[1..] + [e];
      SweepAppend(ps[1..], e);
    }
  }

  /** Every entry goes to exactly one of the two sides. */
  lemma {:induction false} SweepPartition(ps: Pending)
    ensures |Ready(ps)| + |Keep(ps)| == |ps|
    ensures multiset(Ready(ps)) + multiset(Keep(ps)) == multiset(ps)
  {
    if |ps| > 0 {
      SweepPartition(ps[1..]);
      assert ps == [ps[0]] + ps[1..];
    }
  }

  lemma {:induction false} FilteredUnique(ps: Pending)
    requires UniqueIds(ps)
    ensures UniqueIds(Ready(ps)) && UniqueIds(Keep(ps))
  {
    if |ps| > 0 {
      assert UniqueIds(ps[1..]);
      FilteredUnique(ps[1..]);
      assert ps == [ps[0]] + ps[1..];
      IdsCons(ps[0], ps[1..]);
      assert ps[0].id !in Ids(ps[1..]);
      var r, k := Ready(ps[1..]), Keep(ps[1..]);
      assert ps[0].id !in Ids(r) && ps[0].id !in Ids(k);
    }
  }

  /**
    An anchor is emitted exactly when its entry is complete, with the fields
    that entry holds, and it is gone from `pending` afterwards; an incomplete
    entry stays as it is.
   */
  lemma {:induction false} SweepFind(ps: Pending, a: nat)
    requires UniqueIds(ps)
    ensures var p := Find(ps, a);
      && Find(Ready(ps), a) == (if p.Some? && Complete(p.value) then p else None)
      && Find(Keep(ps), a) == (if p.Some? && Complete(p.value) then None else p)
  {
    if |ps| > 0 {
      assert UniqueIds(ps[1..]);
      SweepFind(ps[1..], a);
      FindCons(ps[0], Ready(ps[1..]), a);
      FindCons(ps[0], Keep(ps[1..]), a);
      assert ps == [ps[0]] + ps[1..];
      FindCons(ps[0], ps[1..], a);
      if ps[0].id == a {
        IdsCons(ps[0], ps[1..]);
        assert a !in Ids(ps[1..]);
      }
    }
  }

  /** With no complete entry nothing is emitted and `pending` stays as it is. */
  lemma {:induction false} SweepNoneComplete(ps: Pending)
    requires forall i :: 0 <= i < |ps| ==> !Complete(ps[i].fields)
    ensures Ready(ps) == [] && Keep(ps) == ps
  {
    if |ps| > 0 {
      SweepNoneComplete(ps[1..]);
      assert ps == [ps[0]] + ps[1..];
    }
  }
}

=== FILE: batch_writer.dfy ===
/**
  The rolling output files of the vectoriser. Samples collect in `buf`; a
  flush writes the whole buffer as one file under the current name and starts
  a new file. File names are modelled as fresh tokens (a counter), the clock as
  integer nanoseconds, and the file system as the sequence of batches written.
 */
module BatchWriter {

  /** `FILE_MAX_SECONDS`, one second, in nanoseconds. */
  const MaxAgeNs: int := 1_000_000_000

  /** `FILE_MAX_SAMPLES`. */
  const MaxSamples: nat := 200

  /** One written file: its name and the samples it holds, in order. */
  datatype Batch<S> = Batch(name: nat, samples: seq<S>)

  /** The writer state: `buf`, `file_start`, `fname`, and the files written so far. */
  datatype Writer<S> = Writer(buf: seq<S>, fileStart: int, fname: nat, store: seq<Batch<S>>)

  /** A flush's result: the new state, and whether the write raised. */
  datatype Outcome<S> = Outcome(w: Writer<S>, ok: bool)

  function Start<S>(now: int): (w: Writer<S>)
    ensures Valid(w) && w.buf == [] && Flatten(w.store) == []
  {
    Writer([], now, 0, [])
  }

  /** All samples in the files written, in the order written. */
  function Flatten<S>(store: seq<Batch<S>>): seq<S> {
    if |store| == 0 then [] else Flatten(store[..|store| - 1]) + store[|store| - 1].samples
  }

  /**
    The files already written have strictly increasing names, all below the
    current one, so the next file never overwrites an earlier one; and no file
    is empty.
   */
  predicate Valid<S>(w: Writer<S>) {
    && (forall i :: 0 <= i < |w.store| ==> w.store[i].name < w.fname && |w.store[i].samples| > 0)
    && (forall i, j :: 0 <= i < j < |w.store| ==> w.store[i].name < w.store[j].name)
  }

  /**
    `flush()`: nothing at all on an empty buffer; otherwise the buffer is
    written as one file, and only if the write and the rename succeed
    (`writeOk`) is the buffer emptied, the age reset to `now` and a new name
    drawn. A failed write raises, leaving the state as it was.
   */
  function Flush<S>(w: Writer<S>, now: int, writeOk: bool): (r: Outcome<S>)
    ensures |w.buf| == 0 ==> r == Outcome(w, true)
    ensures r.ok <==> |w.buf| == 0 || writeOk
    ensures !r.ok ==> r.w == w
    ensures r.ok && |w.buf| > 0 ==>
      && r.w.store == w.store + [Batch(w.fname, w.buf)]
      && r.w.buf == []
      && r.w.fileStart == now
      && r.w.fname != w.fname
  {
    if |w.buf| == 0 then Outcome(w, true)
    else if !writeOk then Outcome(w, false)
    else Outcome(Writer([], now, w.fname + 1, w.store + [Batch(w.fname, w.buf)]), true)
  }

  /** The age-or-size test of the main loop. */
  predicate Due<S>(w: Writer<S>, now: int) {
    now - w.fileStart >= MaxAgeNs || |w.buf| >= MaxSamples
  }

  /** The flush check at the end of each line: flush when the file is old enough or full. */
  function FlushIfDue<S>(w: Writer<S>, now: int, writeOk: bool): (r: Outcome<S>)
    ensures !Due(w, now) ==> r == Outcome(w, true)
    ensures r.ok && Due(w, now) ==> r.w.buf == [] && r.w.store == w.store + (if |w.buf| > 0 then [Batch(w.fname, w.buf)] else [])
    ensures r.ok ==> |r.w.buf| < MaxSamples
  {
    if Due(w, now) then Flush(w, now, writeOk) else Outcome(w, true)
  }

  lemma FlattenAppend<S>(store: seq<Batch<S>>, b: Batch<S>)
    ensures Flatten(store + [b]) == Flatten(store) + b.samples
  {
    assert (store + [b])[..|store|] == store;
  }

  /** No sample is lost or duplicated: files then buffer hold the same samples before and after. */
  lemma FlushConserves<S>(w: Writer<S>, now: int, writeOk: bool)
    ensures var r := Flush(w, now, writeOk);
      Flatten(r.w.store) + r.w.buf == Flatten(w.store) + w.buf
  {
    if |w.buf| > 0 && writeOk {
      FlattenAppend(w.store, Batch(w.fname, w.buf));
    }
  }

  /** Appending samples and then running the flush check only ever adds them after the old ones. */
  lemma AppendConserves<S>(w: Writer<S>, out: seq<S>, now: int, writeOk: bool)
    ensures var r := FlushIfDue(w.(buf := w.buf + out), now, writeOk);
      Flatten(r.w.store) + r.w.buf == Flatten(w.store) + w.buf + out
  {
    FlushConserves(w.(buf := w.buf + out), now, writeOk);
    assert Flatten(w.store) + (w.buf + out) == Flatten(w.store) + w.buf + out;
  }

  /** Flushing keeps names fresh and files non-empty. */
  lemma FlushValid<S>(w: Writer<S>, now: int, writeOk: bool)
    requires Valid(w)
    ensures Valid(Flush(w, now, writeOk).w)
  {
  }

  /** So does the flush check; appending to the buffer does not touch the files. */
  lemma FlushIfDueValid<S>(w: Writer<S>, out: seq<S>, now: int, writeOk: bool)
    requires Valid(w)
    ensures Valid(FlushIfDue(w.(buf := w.buf + out), now, writeOk).w)
  {
    FlushValid(w.(buf := w.buf + out), now, writeOk);
  }

  /**
    The flush in `finally`: if files and buffer held `emitted` before, they
    still do; if the write succeeds the files alone do; names stay fresh.
   */
  lemma FinalFlush<S>(w: Writer<S>, emitted: seq<S>, now: int, writeOk: bool)
    requires Valid(w) && Flatten(w.store) + w.buf == emitted
    ensures var f := Flush(w, now, writeOk);
      && Flatten(f.w.store) + f.w.buf == emitted
      && (f.ok ==> Flatten(f.w.store) == emitted)
      && Valid(f.w)
  {
    FlushConserves(w, now, writeOk);
    FlushValid(w, now, writeOk);
    var f := Flush(w, now, writeOk);
    assert f.ok ==> f.w.buf == [];
  }
}

=== FILE: collector.dfy ===
/**
  The filter script's main loop: three slots, one per field, each holding the
  raw captured text. A slot is searched for only while it is empty, so the
  first value seen wins; when all three are full they are printed together
  and all three are emptied. The anchor id in the line is matched but not
  kept, so the three printed values may come from different anchors.
 */
module Collector {
  import opened Wrappers
  import opened Text
  import opened FieldGrammar

  /** `distance`, `azimuth` and `elevation`; `None` until a value is captured. */
  datatype Slots = Slots(distance: Option<string>, azimuth: Option<string>, elevation: Option<string>)

  /** One printed line: the three captured texts. */
  datatype Triple = Triple(distance: string, azimuth: string, elevation: string)

  /** The state after a line, and what the line printed, if anything. */
  datatype Out = Out(slots: Slots, printed: Option<Triple>)

  const Empty: Slots := Slots(None, None, None)

  function Slot(s: Slots, k: Kind): Option<string> {
    match k
    case Distance => s.distance
    case Azimuth => s.azimuth
    case Elevation => s.elevation
  }

  function Field(t: Triple, k: Kind): string {
    match k
    case Distance => t.distance
    case Azimuth => t.azimuth
    case Elevation => t.elevation
  }

  predicate Full(s: Slots) {
    s.distance.Some? && s.azimuth.Some? && s.elevation.Some?
  }

  /** `m.group(1)` of the field's search, kept as text: a number-like run, never empty. */
  function Capture(line: string, k: Kind): (r: Option<string>)
    ensures r.None? <==> Search(line, k).None?
    ensures r.Some? ==> |r.value| > 0 && All(r.value, IsValueChar)
  {
    match Search(line, k)
    case None => None
    case Some(m) => Some(ValueText(line, k, m))
  }

  /** An empty slot takes the line's capture; a full one is not searched. */
  function KeepFirst(slot: Option<string>, capture: Option<string>): Option<string> {
    if slot.Some? then slot else capture
  }

  /**
    The three captures of one line, as slots. Searching has no effect, so
    searching for every field, full slot or not, changes nothing but the cost.
   */
  function Captures(line: string): Slots {
    Slots(Capture(line, Distance), Capture(line, Azimuth), Capture(line, Elevation))
  }

  lemma CapturesSlot(line: string, k: Kind)
    ensures Slot(Captures(line), k) == Capture(line, k)
  {
    match k
    case Distance =>
    case Azimuth =>
    case Elevation =>
  }

  /** The three guarded searches of one line, given what each would capture. */
  function Fill(s: Slots, c: Slots): Slots {
    Slots(KeepFirst(s.distance, c.distance), KeepFirst(s.azimuth, c.azimuth), KeepFirst(s.elevation, c.elevation))
  }

  /** A full slot is not searched again; an empty one takes the line's capture, or stays empty. */
  lemma FillSlot(s: Slots, c: Slots, k: Kind)
    ensures Slot(s, k).Some? ==> Slot(Fill(s, c), k) == Slot(s, k)
    ensures Slot(s, k).None? ==> Slot(Fill(s, c), k) == Slot(c, k)
  {
    match k
    case Distance =>
    case Azimuth =>
    case Elevation =>
  }

  /**
    One line, given its captures: fill the empty slots, then print and reset
    once all three are full. Whatever came before, at least one slot is empty
    afterwards.
   */
  function StepOn(s: Slots, c: Slots): (o: Out)
    ensures !Full(o.slots)
    ensures o.printed.Some? <==> Full(Fill(s, c))
    ensures o.printed.Some? ==>
      o.slots == Empty && forall k :: Some(Field(o.printed.value, k)) == Slot(Fill(s, c), k)
    ensures o.printed.None? ==> o.slots == Fill(s, c)
  {
    var t := Fill(s, c);
    if Full(t) then Out(Empty, Some(Triple(t.distance.value, t.azimuth.value, t.elevation.value)))
    else Out(t, None)
  }

  /** One iteration of the loop on one line. */
  function Step(s: Slots, line: string): (o: Out)
    ensures !Full(o.slots)
  {
    StepOn(s, Captures(line))
  }

  /** First value wins: a filled slot keeps its text until it is printed. */
  lemma FirstValueWins(s: Slots, line: string, k: Kind)
    requires Slot(s, k).Some?
    ensures var o := Step(s, line);
      && (o.printed.None? ==> Slot(o.slots, k) == Slot(s, k))
      && (o.printed.Some? ==> Some(Field(o.printed.value, k)) == Slot(s, k))
  {
    FillSlot(s, Captures(line), k);
  }

  /** A line with none of the three fields changes nothing and prints nothing. */
  lemma NoMatchUnchanged(s: Slots, line: string)
    requires !Full(s)
    requires forall k :: Search(line, k).None?
    ensures Step(s, line) == Out(s, None)
  {
    var c := Captures(line);
    assert c == Empty by {
      CapturesSlot(line, Distance);
      CapturesSlot(line, Azimuth);
      CapturesSlot(line, Elevation);
    }
    assert Fill(s, c) == s;
  }

  /** The loop over a sequence of lines: the final slots and every line printed, in order. */
  function Run(s: Slots, lines: seq<string>): (r: (Slots, seq<Triple>))
    ensures !Full(s) || |lines| > 0 ==> !Full(r.0)
    ensures |r.1| <= |lines|
  {
    if |lines| == 0 then (s, [])
    else
      var (f, printed) := Run(s, lines[..|lines| - 1]);
      var o := Step(f, lines[|lines| - 1]);
      (o.slots, printed + if o.printed.Some? then [o.printed.value] else [])
  }

  /** Reference meaning of a slot: the first capture of its field among the lines. */
  function FirstCapture(lines: seq<string>, k: Kind): Option<string> {
    if |lines| == 0 then None
    else if Capture(lines[0], k).Some? then Capture(lines[0], k)
    else FirstCapture(lines[1..], k)
  }

  lemma {:induction false} FirstCaptureSnoc(lines: seq<string>, line: string, k: Kind)
    ensures FirstCapture(lines + [line], k) ==
      if FirstCapture(lines, k).Some? then FirstCapture(lines, k) else Capture(line, k)
  {
    if |lines| > 0 {
      assert (lines + [line])[1..] == lines[1..] + [line];
      FirstCaptureSnoc(lines[1..], line, k);
    }
  }

  /**
    Until the first print, each slot holds the first capture of its field
    among all lines read since the start, whichever anchor it came from.
   */
  lemma {:induction false} QuietRun(lines: seq<string>, k: Kind)
    requires Run(Empty, lines).1 == []
    ensures Slot(Run(Empty, lines).0, k) == FirstCapture(lines, k)
  {
    if |lines| > 0 {
      var init, line := lines[..|lines| - 1], lines[|lines| - 1];
      assert lines == init + [line];
      assert Run(Empty, init).1 == [] by {
        assert |Run(Empty, init).1| <= |Run(Empty, lines).1|;
      }
      QuietRun(init, k);
      FirstCaptureSnoc(init, line, k);
      FillSlot(Run(Empty, init).0, Captures(line), k);
      CapturesSlot(line, k);
    }
  }

  /**
    The first line printed holds, for each field, the first capture of that
    field since the start; it is printed on the line where the last of the
    three is first seen.
   */
  lemma FirstPrint(lines: seq<string>, line: string, k: Kind)
    requires Run(Empty, lines).1 == []
    ensures var o, seen := Step(Run(Empty, lines).0, line), lines + [line];
      && (o.printed.Some? <==>
            FirstCapture(seen, Distance).Some? && FirstCapture(seen, Azimuth).Some?
            && FirstCapture(seen, Elevation).Some?)
      && (o.printed.Some? ==> Some(Field(o.printed.value, k)) == FirstCapture(seen, k))
  {
    SlotIsFirst(lines, line, Distance);
    SlotIsFirst(lines, line, Azimuth);
    SlotIsFirst(lines, line, Elevation);
  }

  lemma SlotIsFirst(lines: seq<string>, line: string, k: Kind)
    requires Run(Empty, lines).1 == []
    ensures Slot(Fill(Run(Empty, lines).0, Captures(line)), k) == FirstCapture(lines + [line], k)
  {
    QuietRun(lines, k);
    FirstCaptureSnoc(lines, line, k);
    FillSlot(Run(Empty, lines).0, Captures(line), k);
    CapturesSlot(line, k);
  }
}

=== FILE: field_grammar.dfy ===
/**
  The three report patterns of the UWB loggers,
    TWR\[(\d+)\]\.distance\s*:\s*([-\d.]+)
    TWR\[(\d+)\]\.aoa_azimuth\s*:\s*([-\d.]+)
    TWR\[(\d+)\]\.aoa_elevation\s*:\s*([-\d.]+)
  and `re.search`, which returns the leftmost match.

  Every quantified part of these patterns is followed by a character outside its
  own class (`]` after the digits, `:` after the first blanks, a value character
  after the second blanks, anything else after the value), so backtracking never
  changes the outcome: a match at a position exists exactly when the greedy runs
  fit, and it is unique.
 */
module FieldGrammar {
  import opened Wrappers
  import opened Text

  datatype Kind = Distance | Azimuth | Elevation

  /** The literal text between the anchor id and the first blanks. */
  function Tag(k: Kind): (t: string)
    ensures |t| > 1 && t[0] == ']' && t[1] == '.'
  {
    match k
    case Distance => "].distance"
    case Azimuth => "].aoa_azimuth"
    case Elevation => "].aoa_elevation"
  }

  /**
    One regex match, as the positions Python's match object records: the match
    spans `start..end`; group 1 (the anchor id) spans `start + 4..idEnd`, the colon
    sits at `colon`, and group 2 (the value) spans `valueStart..end`.
   */
  datatype Match = Match(start: nat, idEnd: nat, colon: nat, valueStart: nat, end: nat)

  /** Every character of `s` from `i` up to `j` satisfies `p`. */
  predicate Run(s: string, i: nat, j: nat, p: char -> bool)
    requires i <= j <= |s|
  {
    forall n :: i <= n < j ==> p(s[n])
  }

  /**
    `m` is a match of kind `k` in `s`: `TWR[`, a digit run, the attribute name,
    blanks, a colon, blanks and a value run, laid out one after the other, with the
    value run not continuing past `m.end`.
   */
  predicate MatchesAt(s: string, k: Kind, m: Match) {
    && m.start + 4 < m.idEnd
    && m.idEnd + |Tag(k)| <= m.colon < m.valueStart
    && m.valueStart < m.end <= |s|
    && PrefixAt(s, m.start, "TWR[")
    && Run(s, m.start + 4, m.idEnd, IsDigit)
    && PrefixAt(s, m.idEnd, Tag(k))
    && Run(s, m.idEnd + |Tag(k)|, m.colon, IsSpace)
    && s[m.colon] == ':'
    && Run(s, m.colon + 1, m.valueStart, IsSpace)
    && Run(s, m.valueStart, m.end, IsValueChar)
    && (m.end == |s| || !IsValueChar(s[m.end]))
  }

  /** The regex of kind `k` anchored at position `i` (what `pattern.match(s, i)` does). */
  function MatchAt(s: string, i: nat, k: Kind): Option<Match>
    requires i <= |s|
  {
    if PrefixAt(s, i, "TWR[") then MatchId(s, i, k) else None
  }

  /** After `TWR[`: the greedy digit run, then the attribute name. */
  function MatchId(s: string, i: nat, k: Kind): Option<Match>
    requires i + 4 <= |s|
  {
    var j := Span(s, i + 4, IsDigit);
    if j > i + 4 && PrefixAt(s, j, Tag(k)) then MatchColon(s, i, j, k) else None
  }

  /** After the attribute name: greedy blanks, then the colon. */
  function MatchColon(s: string, i: nat, j: nat, k: Kind): Option<Match>
    requires i + 4 <= j && j + |Tag(k)| <= |s|
  {
    var a := Span(s, j + |Tag(k)|, IsSpace);
    if a < |s| && s[a] == ':' then MatchValue(s, i, j, a, k) else None
  }

  /** After the colon: greedy blanks, then the greedy value run, which must not be empty. */
  function MatchValue(s: string, i: nat, j: nat, a: nat, k: Kind): Option<Match>
    requires i + 4 <= j && j + |Tag(k)| <= a < |s|
  {
    var b := Span(s, a + 1, IsSpace);
    var e := Span(s, b, IsValueChar);
    if e > b then Some(Match(i, j, a, b, e)) else None
  }

  /** What `MatchAt` finds is a match, starting where it was asked to. */
  lemma MatchAtSound(s: string, i: nat, k: Kind)
    requires i <= |s|
    ensures var r := MatchAt(s, i, k); r.Some? ==> r.value.start == i && MatchesAt(s, k, r.value)
  {
  }

  /**
    Conversely, every match of kind `k` in `s` is the one `MatchAt` finds at its start;
    with `MatchAtSound`, `MatchAt(s, i, k) == Some(m)` holds exactly when `m` is a
    match starting at `i`.
   */
  lemma MatchAtComplete(s: string, k: Kind, m: Match)
    requires MatchesAt(s, k, m)
    ensures MatchAt(s, m.start, k) == Some(m)
  {
    SpansOfMatch(s, k, m);
    StageValue(s, m.start, m.idEnd, m.colon, k, m.valueStart, m.end);
    StageColon(s, m.start, m.idEnd, k, m.colon);
    StageId(s, m.start, k, m.idEnd);
    StageAt(s, m.start, k);
  }

  /** Under a match, each greedy run of the pattern ends where the match says. */
  lemma SpansOfMatch(s: string, k: Kind, m: Match)
    requires MatchesAt(s, k, m)
    ensures Span(s, m.start + 4, IsDigit) == m.idEnd
    ensures Span(s, m.idEnd + |Tag(k)|, IsSpace) == m.colon
    ensures Span(s, m.colon + 1, IsSpace) == m.valueStart
    ensures Span(s, m.valueStart, IsValueChar) == m.end
  {
    assert s[m.idEnd] == ']' by { PrefixAtChars(s, m.idEnd, Tag(k)); }
    RunEnds(s, m.start + 4, m.idEnd, IsDigit);
    RunEnds(s, m.idEnd + |Tag(k)|, m.colon, IsSpace);
    assert IsValueChar(s[m.valueStart]);
    RunEnds(s, m.colon + 1, m.valueStart, IsSpace);
    RunEnds(s, m.valueStart, m.end, IsValueChar);
  }

  /** A run of `p` characters ended by a non-`p` character is where the greedy `p*` stops. */
  lemma RunEnds(s: string, i: nat, j: nat, p: char -> bool)
    requires i <= j <= |s| && Run(s, i, j, p)
    requires j == |s| || !p(s[j])
    ensures Span(s, i, p) == j
  {
    SpanUnique(s, i, j, p);
  }

  lemma StageAt(s: string, i: nat, k: Kind)
    requires i + 4 <= |s| && PrefixAt(s, i, "TWR[")
    ensures MatchAt(s, i, k) == MatchId(s, i, k)
  {
  }

  lemma StageId(s: string, i: nat, k: Kind, j: nat)
    requires i + 4 < j <= |s| && Span(s, i + 4, IsDigit) == j && PrefixAt(s, j, Tag(k))
    ensures MatchId(s, i, k) == MatchColon(s, i, j, k)
  {
  }

  lemma StageColon(s: string, i: nat, j: nat, k: Kind, a: nat)
    requires i + 4 <= j && j + |Tag(k)| <= a < |s|
    requires Span(s, j + |Tag(k)|, IsSpace) == a && s[a] == ':'
    ensures MatchColon(s, i, j, k) == MatchValue(s, i, j, a, k)
  {
  }

  lemma StageValue(s: string, i: nat, j: nat, a: nat, k: Kind, b: nat, e: nat)
    requires i + 4 <= j && j + |Tag(k)| <= a < b < e <= |s|
    requires Span(s, a + 1, IsSpace) == b && Span(s, b, IsValueChar) == e
    ensures MatchValue(s, i, j, a, k) == Some(Match(i, j, a, b, e))
  {
  }

  /** The leftmost position at or after `i` where the anchored pattern of kind `k` matches. */
  function SearchFrom(s: string, k: Kind, i: nat): (r: Option<Match>)
    requires i <= |s|
    ensures r.Some? ==> i <= r.value.start <= |s| && MatchAt(s, r.value.start, k) == r
    ensures r.Some? ==> forall j :: i <= j < r.value.start ==> MatchAt(s, j, k).None?
    ensures r.None? ==> forall j :: i <= j <= |s| ==> MatchAt(s, j, k).None?
    decreases |s| - i
  {
    var m := MatchAt(s, i, k);
    if m.Some? then m
    else if i == |s| then None
    else SearchFrom(s, k, i + 1)
  }

  /** `re.search`: the match of kind `k` in `s` with the smallest start, or none. */
  function Search(s: string, k: Kind): (r: Option<Match>)
    ensures r.Some? ==> MatchesAt(s, k, r.value)
    ensures r.Some? ==> forall j :: 0 <= j < r.value.start ==> MatchAt(s, j, k).None?
    ensures r.None? ==> forall j :: 0 <= j <= |s| ==> MatchAt(s, j, k).None?
  {
    var r := SearchFrom(s, k, 0);
    if r.Some? then MatchAtSound(s, r.value.start, k); r else r
  }

  /**
    In terms of the pattern itself: no match of kind `k` starts left of the one
    `Search` returns, and `Search` returns none exactly when the line holds no match.
   */
  lemma SearchLeftmost(s: string, k: Kind)
    ensures Search(s, k).Some? ==> forall m: Match :: m.start < Search(s, k).value.start ==> !MatchesAt(s, k, m)
    ensures Search(s, k).None? <==> forall m: Match :: !MatchesAt(s, k, m)
  {
    var r := Search(s, k);
    forall m: Match | MatchesAt(s, k, m) && (r.None? || m.start < r.value.start)
      ensures false
    {
      MatchAtComplete(s, k, m);
    }
  }

  /** Capture group 1: the anchor id's digits. */
  function IdText(s: string, k: Kind, m: Match): (d: string)
    requires MatchesAt(s, k, m)
    ensures |d| > 0 && All(d, IsDigit)
  {
    AllOfSlice(s, m.start + 4, m.idEnd, IsDigit);
    s[m.start + 4..m.idEnd]
  }

  /** Capture group 2: the value text, characters of `[-\d.]` only. */
  function ValueText(s: string, k: Kind, m: Match): (v: string)
    requires MatchesAt(s, k, m)
    ensures |v| > 0 && All(v, IsValueChar)
  {
    AllOfSlice(s, m.valueStart, m.end, IsValueChar);
    s[m.valueStart..m.end]
  }

  /**
    Python's default bound on the digits `int()` converts from a decimal
    string (`sys.int_info.default_max_str_digits`); a longer digit string
    raises `ValueError`.
   */
  const MaxIntDigits := 4300

  /** The anchor id of a match as `int(m.group(1))` reads it, or `None` where `int()` raises. */
  function AnchorId(s: string, k: Kind, m: Match): (r: Option<nat>)
    requires MatchesAt(s, k, m)
    ensures r.None? <==> |IdText(s, k, m)| > MaxIntDigits
    ensures r.Some? ==> r.value == DigitsValue(IdText(s, k, m)) && r.value < Pow10(|IdText(s, k, m)|)
  {
    var d := IdText(s, k, m);
    if |d| > MaxIntDigits then None else Some(DigitsValue(d))
  }
}

=== FILE: float_parse.dfy ===
/**
  Python's `float()` applied to the value capture `[-\d.]+` of the report
  patterns. Within that character class `float()` accepts exactly an optional
  single leading `-` followed by digits with at most one `.` and at least one
  digit (`1`, `1.`, `.5`, `-1.5`); anything else (`-`, `.`, `1.2.3`, `--1`,
  `1-2`) raises `ValueError`. Values are the exact decimal the text denotes;
  rounding to the nearest double is not modelled.
 */
module FloatParse {
  import opened Wrappers
  import opened Text

  predicate IsDigitOrDot(c: char) {
    c == '.' || IsDigit(c)
  }

  /** The unsigned part of an accepted text: digits and dots only, at most one dot, some digit. */
  predicate UnsignedSyntax(u: string) {
    && All(u, IsDigitOrDot)
    && (forall n, m :: 0 <= n < m < |u| && u[n] == '.' ==> u[m] != '.')
    && (exists n :: 0 <= n < |u| && IsDigit(u[n]))
  }

  /** The texts `float()` accepts, stated independently of how `ParseFloat` scans them. */
  predicate FloatSyntax(t: string) {
    if |t| > 0 && t[0] == '-' then UnsignedSyntax(t[1..]) else UnsignedSyntax(t)
  }

  /** `float(t)`: the number `t` denotes, or `None` where Python raises `ValueError`. */
  function ParseFloat(t: string): (r: Option<real>)
    ensures r.Some? && r.value < 0.0 ==> |t| > 0 && t[0] == '-'
  {
    if |t| > 0 && t[0] == '-' then
      match ParseUnsigned(t[1..])
      case Some(v) => Some(-v)
      case None => None
    else
      ParseUnsigned(t)
  }

  /** `ParseFloat` succeeds on exactly the texts of the grammar. */
  lemma ParseFloatAccepts(t: string)
    ensures ParseFloat(t).Some? <==> FloatSyntax(t)
  {
    if |t| > 0 && t[0] == '-' {
      UnsignedAccepts(t[1..]);
    } else {
      UnsignedAccepts(t);
    }
  }

  /** An unsigned decimal: integer digits, then optionally `.` and fraction digits. */
  function ParseUnsigned(u: string): Option<real> {
    var d := Span(u, 0, IsDigit);
    if d == |u| then
      if d > 0 then Some(DigitsValue(u) as real) else None
    else if u[d] != '.' then None
    else
      var f := Span(u, d + 1, IsDigit);
      if f != |u| || (d == 0 && f == d + 1) then None
      else
        AllOfSlice(u, 0, d, IsDigit);
        AllOfSlice(u, d + 1, f, IsDigit);
        Some(Decimal(u[..d], u[d + 1..]))
  }

  /** The value of the decimal `ip.fp`. */
  function Decimal(ip: string, fp: string): real
    requires All(ip, IsDigit) && All(fp, IsDigit)
    ensures Decimal(ip, fp) >= 0.0
  {
    var f := DigitsValue(fp) as real / Pow10(|fp|) as real;
    assert f >= 0.0 by {
      QuotientNonNegative(DigitsValue(fp) as real, Pow10(|fp|) as real);
    }
    DigitsValue(ip) as real + f
  }

  lemma QuotientNonNegative(a: real, b: real)
    requires a >= 0.0 && b > 0.0
    ensures a / b >= 0.0
  {
  }

  lemma UnsignedAccepts(u: string)
    ensures ParseUnsigned(u).Some? <==> UnsignedSyntax(u)
  {
    var d := Span(u, 0, IsDigit);
    if d == |u| {
      if d > 0 {
        assert IsDigit(u[0]);
      }
    } else if u[d] == '.' {
      var f := Span(u, d + 1, IsDigit);
      if f == |u| && !(d == 0 && f == d + 1) {
        assert forall n :: 0 <= n < |u| && n != d ==> IsDigit(u[n]);
        if d > 0 {
          assert IsDigit(u[0]);
        } else {
          assert IsDigit(u[1]);
        }
      }
    } else {
      assert !IsDigitOrDot(u[d]);
    }
  }

  /** A leading `-` negates the value of the text after it, which must not start with another `-`. */
  lemma ParseNegated(u: string)
    requires !(|u| > 0 && u[0] == '-')
    ensures ParseFloat("-" + u) == match ParseFloat(u) case Some(v) => Some(-v) case None => None
  {
    assert ("-" + u)[1..] == u;
  }

  /** A run of digits denotes its integer value. */
  lemma ParseInteger(d: string)
    requires |d| > 0 && All(d, IsDigit)
    ensures ParseFloat(d) == Some(DigitsValue(d) as real)
  {
    UnsignedInteger(d);
  }

  /** A `-` followed by a run of digits denotes the negated integer value. */
  lemma ParseNegativeInteger(t: string)
    requires |t| > 1 && t[0] == '-' && All(t[1..], IsDigit)
    ensures ParseFloat(t) == Some(-(DigitsValue(t[1..]) as real))
  {
    UnsignedInteger(t[1..]);
  }

  lemma UnsignedInteger(d: string)
    requires |d| > 0 && All(d, IsDigit)
    ensures ParseUnsigned(d) == Some(DigitsValue(d) as real)
  {
    SpanUnique(d, 0, |d|, IsDigit);
  }

  /** `ip.fp` denotes the integer part plus the fraction. */
  lemma ParseFraction(ip: string, fp: string)
    requires All(ip, IsDigit) && All(fp, IsDigit) && |ip| + |fp| > 0
    ensures ParseFloat(ip + "." + fp) == Some(Decimal(ip, fp))
  {
    var u := ip + "." + fp;
    UnsignedFraction(ip, fp);
    assert u[0] != '-' by {
      if |ip| > 0 {
        assert u[0] == ip[0];
      }
    }
  }

  lemma UnsignedFraction(ip: string, fp: string)
    requires All(ip, IsDigit) && All(fp, IsDigit) && |ip| + |fp| > 0
    ensures ParseUnsigned(ip + "." + fp) == Some(Decimal(ip, fp))
  {
    var u := ip + "." + fp;
    assert u[..|ip|] == ip && u[|ip| + 1..] == fp;
    assert forall n :: 0 <= n < |ip| ==> u[n] == ip[n];
    assert forall n :: |ip| < n < |u| ==> u[n] == fp[n - |ip| - 1];
    SpanUnique(u, 0, |ip|, IsDigit);
    SpanUnique(u, |ip| + 1, |u|, IsDigit);
  }
}

=== FILE: panning.dfy ===
/**
  The Raspberry Pi side of the synchronised panning test. A command (`start`,
  `left`, `right`) arrives for one of two Pis; the Pi reads its current ALSA
  volume, decides a new one, and sets it, trying the mixer controls in a fixed
  order until one accepts. `start` also starts the looping audio player.
  The `amixer` and `mpg123` subprocesses are modelled by their replies, given
  as inputs, and by the commands issued to them.
 */
module Panning {
  import opened Wrappers
  import opened Text

  /** `VOLUME_STEP`. */
  const VolumeStep: int := 10

  /** The volume assumed when none can be read, and the one `start` sets. */
  const DefaultVolume: int := 20

  /** The mixer controls, in the order they are tried. */
  const Controls: seq<string> := ["Headphone", "Master", "PCM", "Digital"]

  function Min(a: int, b: int): int { if a <= b then a else b }

  function Max(a: int, b: int): int { if a >= b then a else b }

  /** `max(0, min(100, v))`. */
  function Clamp(v: int): (c: int)
    ensures 0 <= c <= 100
    ensures 0 <= v <= 100 ==> c == v
    ensures v < 0 ==> c == 0
    ensures v > 100 ==> c == 100
  {
    Max(0, Min(100, v))
  }

  lemma ClampMonotone(a: int, b: int)
    requires a <= b
    ensures Clamp(a) <= Clamp(b) && Clamp(b) - Clamp(a) <= b - a
  {
  }

  // ---------------------------------------------------------------------------
  // The `[N%]` field of `amixer sget` output

  /**
    The pattern `\[(\d{1,3})%\]` matching at `i` with `n` digits. Because the
    digits must be followed by `%`, the greedy `\d{1,3}` can only succeed with
    the whole digit run, so a run of four or more digits never matches.
   */
  predicate PercentShape(out: string, i: nat, n: nat) {
    && 1 <= n <= 3 && i + n + 3 <= |out|
    && out[i] == '['
    && (forall k :: i + 1 <= k < i + 1 + n ==> IsDigit(out[k]))
    && out[i + 1 + n] == '%' && out[i + 2 + n] == ']'
  }

  /** The pattern tried at one position: the captured number, read as `int`. */
  function PercentAt(out: string, i: nat): (r: Option<nat>)
    requires i <= |out|
    ensures r.Some? ==> r.value < 1000
  {
    if i < |out| && out[i] == '[' then
      var j := Span(out, i + 1, IsDigit);
      var n := j - (i + 1);
      if 1 <= n <= 3 && j + 1 < |out| && out[j] == '%' && out[j + 1] == ']' then
        AllOfSlice(out, i + 1, j, IsDigit);
        assert Pow10(n) <= 1000 by { PowMonotone(n, 3); }
        Some(DigitsValue(out[i + 1..j]))
      else None
    else None
  }

  /** The digits of a match are the whole digit run after the bracket. */
  lemma ShapeRun(out: string, i: nat, n: nat)
    requires PercentShape(out, i, n)
    ensures Span(out, i + 1, IsDigit) == i + 1 + n
  {
    SpanUnique(out, i + 1, i + 1 + n, IsDigit);
  }

  lemma {:induction false} PowMonotone(a: nat, b: nat)
    requires a <= b
    ensures Pow10(a) <= Pow10(b)
  {
    if a < b { PowMonotone(a, b - 1); }
  }

  /** The pattern tried at `from`, then at each later position, until it matches. */
  function ParseFrom(out: string, from: nat): (r: Option<nat>)
    requires from <= |out|
    ensures r.Some? ==> r.value < 1000
    decreases |out| - from
  {
    if PercentAt(out, from).Some? then PercentAt(out, from)
    else if from == |out| then None
    else ParseFrom(out, from + 1)
  }

  /** `re.search(r"\[(\d{1,3})%\]", out)` followed by `int(m.group(1))`. */
  function ParsePercent(out: string): (r: Option<nat>)
    ensures r.Some? ==> r.value < 1000
  {
    ParseFrom(out, 0)
  }

  /** The scan comes up empty exactly when no position from `from` on matches. */
  lemma {:induction false} ParseFromNone(out: string, from: nat)
    requires from <= |out|
    ensures ParseFrom(out, from).None? <==> forall j :: from <= j <= |out| ==> PercentAt(out, j).None?
    decreases |out| - from
  {
    if PercentAt(out, from).None? && from < |out| {
      ParseFromNone(out, from + 1);
    }
  }

  /** What the scan reports is the match at the leftmost matching position from `from` on. */
  lemma {:induction false} ParseFromLeftmost(out: string, from: nat)
    requires from <= |out| && ParseFrom(out, from).Some?
    ensures exists i ::
      && from <= i <= |out| && ParseFrom(out, from) == PercentAt(out, i)
      && forall j :: from <= j < i ==> PercentAt(out, j).None?
    decreases |out| - from
  {
    if PercentAt(out, from).None? {
      ParseFromLeftmost(out, from + 1);
      var i :| from + 1 <= i <= |out| && ParseFrom(out, from + 1) == PercentAt(out, i)
        && forall j :: from + 1 <= j < i ==> PercentAt(out, j).None?;
      assert forall j :: from <= j < i ==> PercentAt(out, j).None?;
    } else {
      assert ParseFrom(out, from) == PercentAt(out, from);
    }
  }

  /** `ParsePercent` reports the leftmost match, and finds one whenever there is one. */
  lemma ParsePercentFinds(out: string)
    ensures ParsePercent(out).Some? <==> exists i :: 0 <= i <= |out| && PercentAt(out, i).Some?
    ensures ParsePercent(out).Some? ==>
      exists i :: 0 <= i <= |out| && ParsePercent(out) == PercentAt(out, i)
        && forall j :: 0 <= j < i ==> PercentAt(out, j).None?
  {
    ParseFromNone(out, 0);
    if ParsePercent(out).Some? {
      ParseFromLeftmost(out, 0);
    }
  }

  /** Conversely, the scanner reads a number at a position only where the pattern matches there. */
  lemma PercentAtSound(out: string, i: nat)
    requires i <= |out| && PercentAt(out, i).Some?
    ensures exists n :: PercentShape(out, i, n) && PercentAt(out, i) == Some(DigitsValue(out[i + 1..i + 1 + n]))
  {
    var j := Span(out, i + 1, IsDigit);
    assert PercentShape(out, i, j - (i + 1));
  }

  /**
    `ParsePercent` in terms of the pattern `\[(\d{1,3})%\]` alone: it reads a
    number exactly when the text holds a match, and then the number is the
    digits of the leftmost match.
   */
  lemma ParsePercentPattern(out: string)
    ensures ParsePercent(out).Some? <==> exists i, n :: PercentShape(out, i, n)
    ensures ParsePercent(out).Some? ==>
      exists i, n ::
        && PercentShape(out, i, n)
        && ParsePercent(out) == Some(DigitsValue(out[i + 1..i + 1 + n]))
        && forall j, m :: 0 <= j < i ==> !PercentShape(out, j, m)
  {
    ParsePercentFinds(out);
    if ParsePercent(out).Some? {
      var i :| 0 <= i <= |out| && ParsePercent(out) == PercentAt(out, i)
        && forall j :: 0 <= j < i ==> PercentAt(out, j).None?;
      PercentAtSound(out, i);
      var n :| PercentShape(out, i, n) && PercentAt(out, i) == Some(DigitsValue(out[i + 1..i + 1 + n]));
      forall j, m | 0 <= j < i ensures !PercentShape(out, j, m) {
        if PercentShape(out, j, m) {
          PercentAtShape(out, j, m);
        }
      }
    } else {
      forall i, n ensures !PercentShape(out, i, n) {
        if PercentShape(out, i, n) {
          PercentAtShape(out, i, n);
        }
      }
    }
  }

  /** A match has only one possible length, so the number read is that of its digits. */
  lemma PercentAtShape(out: string, i: nat, n: nat)
    requires PercentShape(out, i, n)
    ensures PercentAt(out, i) == Some(DigitsValue(out[i + 1..i + 1 + n]))
  {
    ShapeRun(out, i, n);
  }

  /** The search finds the first position where the pattern matches. */
  lemma {:induction false} ParseFromAt(out: string, from: nat, i: nat)
    requires from <= i <= |out| && PercentAt(out, i).Some?
    requires forall j :: from <= j < i ==> PercentAt(out, j).None?
    ensures ParseFrom(out, from) == PercentAt(out, i)
    decreases i - from
  {
    if from < i {
      ParseFromAt(out, from + 1, i);
    }
  }

  /** The first `[` opening a well-formed field decides what is read. */
  lemma FirstField(s: string, i: nat, n: nat)
    requires PercentShape(s, i, n)
    requires forall j :: 0 <= j < i ==> s[j] != '['
    ensures ParsePercent(s) == Some(DigitsValue(s[i + 1..i + 1 + n]))
  {
    NoBracketNoMatch(s, i);
    PercentAtShape(s, i, n);
    ParseFromAt(s, 0, i);
  }

  /**
    A volume printed as `[N%]` after text with no `[` is read back as N: the
    one- to three-digit field round-trips through the search and `int`.
   */
  lemma PercentRoundTrip(pre: string, d: string, post: string)
    requires forall k :: 0 <= k < |pre| ==> pre[k] != '['
    requires 1 <= |d| <= 3 && All(d, IsDigit)
    ensures ParsePercent(pre + "[" + d + "%]" + post) == Some(DigitsValue(d))
  {
    var s := pre + "[" + d + "%]" + post;
    Layout(pre, d, post);
    FirstField(s, |pre|, |d|);
  }

  /** Where the parts of a rendered `[N%]` field sit in the text. */
  lemma Layout(pre: string, d: string, post: string)
    requires forall k :: 0 <= k < |pre| ==> pre[k] != '['
    requires 1 <= |d| <= 3 && All(d, IsDigit)
    ensures var s, i, n := pre + "[" + d + "%]" + post, |pre|, |d|;
      && (forall j :: 0 <= j < i ==> s[j] != '[')
      && s[i + 1..i + 1 + n] == d
      && PercentShape(s, i, n)
  {
    var s, i, n := pre + "[" + d + "%]" + post, |pre|, |d|;
    var a := pre + "[" + d;
    assert a[..i] == pre && a[i + 1..] == d;
    assert s[..i + 1 + n] == a;
    assert s[i + 1..i + 1 + n] == a[i + 1..];
    forall k | i + 1 <= k < i + 1 + n ensures IsDigit(s[k]) {
      assert s[k] == d[k - i - 1];
    }
    forall j | 0 <= j < i ensures s[j] != '[' {
      assert s[j] == pre[j];
    }
  }

  /** Text without a `[` holds no match. */
  lemma NoBracketNoMatch(s: string, i: nat)
    requires i <= |s|
    requires forall j :: 0 <= j < i ==> s[j] != '['
    ensures forall j :: 0 <= j < i ==> PercentAt(s, j).None?
  {
  }

  // ---------------------------------------------------------------------------
  // amixer

  /** A command line run: `amixer sset <control> <percent>%` or `amixer sget <control>`. */
  datatype Command = SSet(control: string, percent: int) | SGet(control: string)

  /** What `amixer sget` returns: its exit status and its standard output. */
  datatype Reply = Reply(code: int, stdout: string)

  /** The volume a control's reply yields: none when the call failed or has no `[N%]`. */
  function Answer(reply: Reply): (r: Option<nat>)
    ensures r.Some? ==> reply.code == 0 && r.value < 1000
  {
    if reply.code != 0 then None else ParsePercent(reply.stdout)
  }

  /** Whether some control was set, and the commands run to get there. */
  datatype Attempt = Attempt(ok: bool, issued: seq<Command>)

  /** The volume read, if any, and the commands run to get it. */
  datatype Probe = Probe(volume: Option<nat>, issued: seq<Command>)

  /** `amixer sset` on each control in turn until one exits with status 0. */
  function SetFrom(ctls: seq<string>, v: int, sset: (string, int) -> int): (r: Attempt)
    ensures |r.issued| <= |ctls|
    ensures forall j :: 0 <= j < |r.issued| ==> r.issued[j] == SSet(ctls[j], v)
    ensures forall j :: 0 <= j < |r.issued| - 1 ==> sset(ctls[j], v) != 0
    ensures r.ok ==> |r.issued| > 0 && sset(ctls[|r.issued| - 1], v) == 0
    ensures !r.ok ==> |r.issued| == |ctls|
    ensures r.ok <==> exists j :: 0 <= j < |ctls| && sset(ctls[j], v) == 0
  {
    if |ctls| == 0 then Attempt(false, [])
    else if sset(ctls[0], v) == 0 then Attempt(true, [SSet(ctls[0], v)])
    else
      var r := SetFrom(ctls[1..], v, sset);
      assert forall j :: 1 <= j < |ctls| ==> ctls[1..][j - 1] == ctls[j];
      Attempt(r.ok, [SSet(ctls[0], v)] + r.issued)
  }

  /**
    `amixer_set`: the volume is clamped into [0, 100] first; the controls are
    tried in order and the first success ends the search. True exactly when
    some control accepted the volume.
   */
  function AmixerSet(volPercent: int, sset: (string, int) -> int): (r: Attempt)
    ensures forall c :: c in r.issued ==> c.SSet? && c.percent == Clamp(volPercent) && 0 <= c.percent <= 100
    ensures r.ok <==> exists j :: 0 <= j < |Controls| && sset(Controls[j], Clamp(volPercent)) == 0
  {
    SetFrom(Controls, Clamp(volPercent), sset)
  }

  /**
    What each control would answer, in order. Asking has no effect, so the
    answers can be collected up front; only the ones asked appear in `issued`.
   */
  function Answers(sget: string -> Reply): (answers: seq<Option<nat>>)
    ensures |answers| == |Controls|
    ensures forall j :: 0 <= j < |Controls| ==> answers[j] == Answer(sget(Controls[j]))
  {
    [Answer(sget(Controls[0])), Answer(sget(Controls[1])), Answer(sget(Controls[2])), Answer(sget(Controls[3]))]
  }

  /** `amixer sget` on each control in turn until one answers with a `[N%]` field. */
  function GetFrom(ctls: seq<string>, answers: seq<Option<nat>>): (r: Probe)
    requires |answers| == |ctls|
    ensures |r.issued| <= |ctls|
    ensures forall j :: 0 <= j < |r.issued| ==> r.issued[j] == SGet(ctls[j])
    ensures forall j :: 0 <= j < |r.issued| - 1 ==> answers[j].None?
    ensures r.volume.Some? ==> |r.issued| > 0 && r.volume == answers[|r.issued| - 1]
    ensures r.volume.None? ==> |r.issued| == |ctls|
    ensures r.volume.None? <==> forall j :: 0 <= j < |ctls| ==> answers[j].None?
  {
    if |ctls| == 0 then Probe(None, [])
    else if answers[0].Some? then Probe(answers[0], [SGet(ctls[0])])
    else
      var r := GetFrom(ctls[1..], answers[1..]);
      assert forall j :: 1 <= j < |ctls| ==> ctls[1..][j - 1] == ctls[j] && answers[1..][j - 1] == answers[j];
      Probe(r.volume, [SGet(ctls[0])] + r.issued)
  }

  /**
    `amixer_get`: the number in the first `[N%]` of the first control that
    answers with one. It is not clamped, so it can be as large as 999.
   */
  function AmixerGet(sget: string -> Reply): (r: Probe)
    ensures forall c :: c in r.issued ==> c.SGet?
    ensures r.volume.Some? ==> r.volume.value < 1000
    ensures r.volume.None? <==> forall j :: 0 <= j < |Controls| ==> Answer(sget(Controls[j])).None?
    ensures r.volume.Some? ==>
      exists j :: 0 <= j < |Controls| && r.volume == Answer(sget(Controls[j]))
        && forall i :: 0 <= i < j ==> Answer(sget(Controls[i])).None?
  {
    var answers := Answers(sget);
    var r := GetFrom(Controls, answers);
    assert r.volume.Some? ==> r.volume.value < 1000 by {
      if r.volume.Some? {
        assert r.volume == Answer(sget(Controls[|r.issued| - 1]));
      }
    }
    r
  }

  // ---------------------------------------------------------------------------
  // The player

  /** A player process, and whether `poll()` would still report it running. */
  datatype Proc = Proc(alive: bool)

  datatype Player = Player(audioFile: string, proc: Option<Proc>)

  predicate IsRunning(p: Player) {
    p.proc.Some? && p.proc.value.alive
  }

  /**
    `Player.start`: nothing while the player runs, nothing when `mpg123` is
    not installed, otherwise a new looping process.
   */
  function Start(p: Player, mpgFound: bool): (q: Player)
    ensures q.audioFile == p.audioFile
    ensures IsRunning(p) || !mpgFound ==> q == p
    ensures IsRunning(q) <==> IsRunning(p) || mpgFound
  {
    if IsRunning(p) then p
    else if !mpgFound then p
    else p.(proc := Some(Proc(true)))
  }

  /** `Player.stop`: a running process is ended; in every case none is kept. */
  function Stop(p: Player): (q: Player)
    ensures q.audioFile == p.audioFile && q.proc.None? && !IsRunning(q)
  {
    p.(proc := None)
  }

  lemma StartIdempotent(p: Player, mpgFound: bool)
    ensures Start(Start(p, mpgFound), mpgFound) == Start(p, mpgFound)
  {
  }

  /** After a stop, a start always brings up a fresh process when `mpg123` is installed. */
  lemma RestartAfterStop(p: Player)
    ensures IsRunning(Start(Stop(p), true))
    ensures Start(Stop(p), true).proc == Some(Proc(true))
  {
  }

  // ---------------------------------------------------------------------------
  // `handle_cmd`

  /** What a command leads to, once the current volume is known. */
  datatype Action = StartPlayback | Ignore | SetVolume(volume: int)

  /** Whether a command pans toward this Pi: left toward Pi 1, right toward Pi 2. */
  predicate Toward(piId: int, cmd: string) {
    (cmd == "left" && piId == 1) || (cmd == "right" && piId == 2)
  }

  /**
    The decision of `handle_cmd`. An unreadable volume counts as 20. A pan
    toward this Pi raises its volume by at most 10, one away lowers it by at
    most 10, and the result is always within [0, 100].
   */
  function Decide(piId: int, cmd: string, current: Option<nat>): (a: Action)
    ensures a == StartPlayback <==> cmd == "start"
    ensures a == Ignore <==> cmd != "start" && cmd != "left" && cmd != "right"
    ensures a.SetVolume? ==> 0 <= a.volume <= 100
    ensures a.SetVolume? ==>
      a.volume == Clamp(current.GetOr(DefaultVolume) + if Toward(piId, cmd) then VolumeStep else -VolumeStep)
    ensures a.SetVolume? ==> var cur := current.GetOr(DefaultVolume);
      && (Toward(piId, cmd) ==> Clamp(cur) <= a.volume <= Clamp(cur) + VolumeStep)
      && (!Toward(piId, cmd) ==> Clamp(cur) - VolumeStep <= a.volume <= Clamp(cur))
  {
    var cur := current.GetOr(DefaultVolume);
    if cmd == "start" then StartPlayback
    else if cmd != "left" && cmd != "right" then Ignore
    else
      var delta := if Toward(piId, cmd) then VolumeStep else -VolumeStep;
      ClampMonotone(cur, cur + VolumeStep);
      ClampMonotone(cur - VolumeStep, cur);
      SetVolume(Clamp(cur + delta))
  }

  /** Away from the limits a pan moves the volume by exactly one step. */
  lemma PanStep(piId: int, cmd: string, cur: nat)
    requires cmd == "left" || cmd == "right"
    requires VolumeStep <= cur <= 100 - VolumeStep
    ensures Decide(piId, cmd, Some(cur)) ==
      SetVolume(if Toward(piId, cmd) then cur + VolumeStep else cur - VolumeStep)
  {
  }

  /** The two Pis move in opposite directions on the same command: that is the panning. */
  lemma OppositeSpeakers(cmd: string, cur: nat)
    requires cmd == "left" || cmd == "right"
    requires VolumeStep <= cur <= 100 - VolumeStep
    ensures Decide(1, cmd, Some(cur)).volume - cur == cur - Decide(2, cmd, Some(cur)).volume != 0
  {
    PanStep(1, cmd, cur);
    PanStep(2, cmd, cur);
  }

  /** Away from the limits, `left` then `right` returns each Pi to where it was. */
  lemma LeftRightInverse(piId: int, cur: nat)
    requires piId == 1 || piId == 2
    requires VolumeStep <= cur <= 100 - VolumeStep
    ensures var up := Decide(piId, "left", Some(cur)).volume;
      0 <= up && Decide(piId, "right", Some(up)) == SetVolume(cur)
  {
    PanStep(piId, "left", cur);
  }

  /** The outcome of one command: the player afterwards, the action, and the `amixer` calls run. */
  datatype Handled = Handled(player: Player, action: Action, issued: seq<Command>)

  /**
    `handle_cmd` once the volume has been read: `start` sets 20 and starts the
    player; `left`/`right` set the decided volume; any other command has no
    effect past the read. The player is touched only by `start`, and no volume
    outside [0, 100] is ever requested.
   */
  function HandleRead(piId: int, cmd: string, get: Probe, sset: (string, int) -> int,
                      player: Player, mpgFound: bool): (h: Handled)
    requires forall c :: c in get.issued ==> c.SGet?
    ensures h.action == Decide(piId, cmd, get.volume)
    ensures |get.issued| <= |h.issued| && h.issued[..|get.issued|] == get.issued
    ensures h.action != StartPlayback ==> h.player == player
    ensures h.action == StartPlayback ==> h.player == Start(player, mpgFound)
    ensures h.action == Ignore ==> h.issued == get.issued
    ensures forall c :: c in h.issued && c.SSet? ==> 0 <= c.percent <= 100
    ensures h.action == StartPlayback ==> forall c :: c in h.issued && c.SSet? ==> c.percent == DefaultVolume
    ensures h.action == StartPlayback ==> h.issued == get.issued + AmixerSet(DefaultVolume, sset).issued
    ensures h.action.SetVolume? ==> h.issued == get.issued + AmixerSet(h.action.volume, sset).issued
  {
    var a := Decide(piId, cmd, get.volume);
    match a
    case StartPlayback =>
      var put := AmixerSet(DefaultVolume, sset);
      assert (get.issued + put.issued)[..|get.issued|] == get.issued;
      Handled(Start(player, mpgFound), a, get.issued + put.issued)
    case Ignore => Handled(player, a, get.issued)
    case SetVolume(v) =>
      var put := AmixerSet(v, sset);
      assert (get.issued + put.issued)[..|get.issued|] == get.issued;
      Handled(player, a, get.issued + put.issued)
  }

  /** `handle_cmd`: the volume is always read first, 20 standing in when none can be read. */
  function HandleCmd(piId: int, cmd: string, sget: string -> Reply, sset: (string, int) -> int,
                     player: Player, mpgFound: bool): (h: Handled)
    ensures var get := AmixerGet(sget);
      && h.action == Decide(piId, cmd, get.volume)
      && |get.issued| <= |h.issued| && h.issued[..|get.issued|] == get.issued
      && (h.action == Ignore ==> h.issued == get.issued)
      && (h.action == StartPlayback ==> h.issued == get.issued + AmixerSet(DefaultVolume, sset).issued)
      && (h.action.SetVolume? ==> h.issued == get.issued + AmixerSet(h.action.volume, sset).issued)
    ensures h.action != StartPlayback ==> h.player == player
    ensures h.action == StartPlayback ==> h.player == Start(player, mpgFound)
    ensures forall c :: c in h.issued && c.SSet? ==> 0 <= c.percent <= 100
  {
    HandleRead(piId, cmd, AmixerGet(sget), sset, player, mpgFound)
  }

  /**
    A pan sets exactly `max(0, min(100, current + delta))`, where `current` is
    the volume read or 20, and leaves the player alone; the set is reported as
    done exactly when some control accepted it.
   */
  lemma PanSetsVolume(piId: int, cmd: string, sget: string -> Reply, sset: (string, int) -> int,
                      player: Player, mpgFound: bool)
    requires cmd == "left" || cmd == "right"
    ensures var h, cur := HandleCmd(piId, cmd, sget, sset, player, mpgFound), AmixerGet(sget).volume.GetOr(DefaultVolume);
      var v := Clamp(cur + if Toward(piId, cmd) then VolumeStep else -VolumeStep);
      && h.player == player
      && h.action == SetVolume(v)
      && (forall c :: c in h.issued && c.SSet? ==> c.percent == v)
      && (AmixerSet(v, sset).ok <==> exists j :: 0 <= j < |Controls| && sset(Controls[j], v) == 0)
  {
    var h, get := HandleCmd(piId, cmd, sget, sset, player, mpgFound), AmixerGet(sget);
    var put := AmixerSet(h.action.volume, sset);
    assert h.issued == get.issued + put.issued;
  }
}

=== FILE: pipeline.dfy ===
/**
  One iteration of the vectoriser's main loop per input line: the three field
  searches update `pending`, every completed anchor emits a sample and is
  removed, and the flush check runs. A value `float()` rejects, or an id of
  more digits than `int()` converts, raises out of the loop; the final flush
  in `finally` then writes what is buffered.
 */
module Pipeline {
  import opened Wrappers
  import opened Text
  import opened FieldGrammar
  import opened FloatParse
  import opened Vectors
  import opened Assembler
  import opened BatchWriter

  /** What one search of one kind finds in a line. */
  datatype Reading =
    | NoMatch
    | Found(id: nat, value: real)
    | Malformed(text: string)

  /**
    A captured text on which a conversion raises `ValueError`: a digit string
    too long for `int()`, or a text outside `float()`'s grammar.
   */
  predicate Rejected(t: string) {
    (|t| > MaxIntDigits && All(t, IsDigit)) || !FloatSyntax(t)
  }

  /**
    `m = re_*.search(s)` followed by `int(m.group(1)), float(m.group(2))`;
    `int()` runs first, so a too-long id raises before the value is read.
   */
  function ReadField(line: string, k: Kind): (r: Reading)
    ensures r.NoMatch? <==> Search(line, k).None?
    ensures r.Found? || r.Malformed? ==> var m := Search(line, k).value;
      r.Found? <==> |IdText(line, k, m)| <= MaxIntDigits && FloatSyntax(ValueText(line, k, m))
    ensures r.Malformed? ==> Rejected(r.text)
    ensures r.Malformed? ==> var m := Search(line, k).value;
      if |IdText(line, k, m)| > MaxIntDigits then r.text == IdText(line, k, m)
      else r.text == ValueText(line, k, m) && !FloatSyntax(r.text)
    ensures r.Found? ==> var m := Search(line, k).value;
      AnchorId(line, k, m) == Some(r.id) && ParseFloat(ValueText(line, k, m)) == Some(r.value)
  {
    match Search(line, k)
    case None => NoMatch
    case Some(m) =>
      var t := ValueText(line, k, m);
      ParseFloatAccepts(t);
      match AnchorId(line, k, m)
      case None => Malformed(IdText(line, k, m))
      case Some(id) =>
        match ParseFloat(t)
        case Some(v) => Found(id, v)
        case None => Malformed(t)
  }

  /** `pending` after the readings of one line, or the text that raised. */
  datatype Absorbed = Absorbed(pending: Pending) | Raised(text: string)

  /**
    The three searches of one line, distance first, then azimuth, then
    elevation. Searching has no effect, so running all three before acting on
    any is the same as the program's interleaving.
   */
  function Readings(line: string): (rs: seq<Reading>)
    ensures |rs| == 3
  {
    [ReadField(line, Distance), ReadField(line, Azimuth), ReadField(line, Elevation)]
  }

  /** The kind the `i`-th reading of a line is for. */
  function KindAt(i: nat): Kind
    requires i < 3
  {
    if i == 0 then Distance else if i == 1 then Azimuth else Elevation
  }

  /**
    Acts on the readings `rs[i..]` in order: a value updates its anchor's
    entry, a missing match does nothing, and a malformed number raises.
   */
  function Absorb(ps: Pending, rs: seq<Reading>, i: nat): (r: Absorbed)
    requires |rs| == 3 && i <= 3
    ensures r.Absorbed? ==> forall a :: a in Ids(ps) ==> a in Ids(r.pending)
    decreases 3 - i
  {
    if i == 3 then Absorbed(ps)
    else
      match rs[i]
      case Malformed(t) => Raised(t)
      case NoMatch => Absorb(ps, rs, i + 1)
      case Found(id, v) => Absorb(Update(ps, id, KindAt(i), v), rs, i + 1)
  }

  lemma {:induction false} AbsorbUnique(ps: Pending, rs: seq<Reading>, i: nat)
    requires |rs| == 3 && i <= 3
    requires UniqueIds(ps)
    ensures Absorb(ps, rs, i).Absorbed? ==> UniqueIds(Absorb(ps, rs, i).pending)
    decreases 3 - i
  {
    if i < 3 {
      match rs[i]
      case Malformed(t) =>
      case NoMatch => AbsorbUnique(ps, rs, i + 1);
      case Found(id, v) =>
        UpdateUnique(ps, id, KindAt(i), v);
        AbsorbUnique(Update(ps, id, KindAt(i), v), rs, i + 1);
    }
  }

  /** Readings that do not name anchor `a` leave its entry as it was. */
  lemma {:induction false} AbsorbFrame(ps: Pending, rs: seq<Reading>, i: nat, a: nat)
    requires |rs| == 3 && i <= 3
    requires forall j :: i <= j < 3 && rs[j].Found? ==> rs[j].id != a
    ensures var r := Absorb(ps, rs, i);
      r.Absorbed? ==> Find(r.pending, a) == Find(ps, a)
    decreases 3 - i
  {
    if i < 3 {
      match rs[i]
      case Malformed(_) =>
      case NoMatch => AbsorbFrame(ps, rs, i + 1, a);
      case Found(id, v) => AbsorbFrame(Update(ps, id, KindAt(i), v), rs, i + 1, a);
    }
  }

  /** An anchor's orientation in degrees: yaw about +Z, pitch about +Y, roll about +X. */
  datatype Pose = Pose(yaw: real, pitch: real, roll: real)

  /** `ANCHOR_POSE`. */
  const AnchorPoses: map<nat, Pose> := map[
    0 := Pose(45.0, 0.0, 0.0),
    1 := Pose(135.0, 0.0, 0.0),
    2 := Pose(-135.0, 0.0, 0.0),
    3 := Pose(-45.0, 0.0, 0.0)]

  /** `trig(d)` is the (cosine, sine) pair of `d` degrees, standing for `deg2rad`, `math.cos` and `math.sin`. */
  ghost predicate UnitTrig(trig: real -> CosSin) {
    forall d :: OnUnitCircle(trig(d))
  }

  /**
    `R_anchor.get(id, identity)`: the rotation of a configured anchor, the
    identity for any other. The rotation is the docstring's `Rz Ry Rx`; for
    the configured poses it equals what the code's `rot_zyx` computes.
   */
  function AnchorMatrix(trig: real -> CosSin, id: nat): Mat3 {
    if id in AnchorPoses then
      var p := AnchorPoses[id];
      RotZyxIntended(trig(p.yaw), trig(p.pitch), trig(p.roll))
    else Identity
  }

  /**
    For the configured poses the corrected rotation and the code's `rot_zyx`
    agree, both being the yaw rotation, once the angle zero has cosine 1 and
    sine 0.
   */
  lemma AnchorMatrixAsWritten(trig: real -> CosSin, id: nat)
    requires trig(0.0) == Zero
    requires id in AnchorPoses
    ensures var p := AnchorPoses[id];
      && AnchorMatrix(trig, id) == RotZyx(trig(p.yaw), trig(p.pitch), trig(p.roll))
      && AnchorMatrix(trig, id) == Rz(trig(p.yaw))
  {
    var p := AnchorPoses[id];
    assert p.pitch == 0.0 && p.roll == 0.0;
    RotZyxYawOnly(trig(p.yaw));
  }

  /** One output record: `t_unix_ns`, `anchor_id`, `vector_local`, `vector_global` and `raw`. */
  datatype Sample = Sample(t: int, id: nat, local: Vec3, global: Vec3, r: real, az: real, el: real)

  /**
    The sample of a completed entry. Its local vector has the distance as its
    length, and so has its global vector, which for an anchor without a pose
    is the local vector itself.
   */
  function MakeSample(trig: real -> CosSin, now: int, e: Entry): (s: Sample)
    requires Complete(e.fields)
    ensures s.id == e.id && s.t == now
    ensures Get(e.fields, Distance) == Some(s.r)
    ensures Get(e.fields, Azimuth) == Some(s.az)
    ensures Get(e.fields, Elevation) == Some(s.el)
    ensures s.local == LocalVector(s.r, trig(s.az), trig(s.el))
    ensures s.global == Apply(AnchorMatrix(trig, e.id), s.local)
    ensures e.id !in AnchorPoses ==> s.global == s.local
  {
    assert Get(e.fields, Distance).Some? && Get(e.fields, Azimuth).Some? && Get(e.fields, Elevation).Some?;
    var r, az, el := e.fields.r.value, e.fields.az.value, e.fields.el.value;
    var local := LocalVector(r, trig(az), trig(el));
    ApplyIdentity(local);
    Sample(now, e.id, local, Apply(AnchorMatrix(trig, e.id), local), r, az, el)
  }

  /** With exact trigonometry both vectors of a sample have the distance as their length. */
  lemma SampleLength(trig: real -> CosSin, now: int, e: Entry)
    requires UnitTrig(trig)
    requires Complete(e.fields)
    ensures var s := MakeSample(trig, now, e);
      NormSq(s.local) == s.r * s.r && NormSq(s.global) == s.r * s.r
  {
    var s := MakeSample(trig, now, e);
    assert OnUnitCircle(trig(s.az)) && OnUnitCircle(trig(s.el));
    if e.id in AnchorPoses {
      var p := AnchorPoses[e.id];
      assert OnUnitCircle(trig(p.yaw)) && OnUnitCircle(trig(p.pitch)) && OnUnitCircle(trig(p.roll));
      IntendedPreservesNorm(trig(p.yaw), trig(p.pitch), trig(p.roll), s.local);
    }
  }

  /** The samples of completed entries, in order. */
  function Samples(trig: real -> CosSin, now: int, es: Pending): (out: seq<Sample>)
    requires forall i :: 0 <= i < |es| ==> Complete(es[i].fields)
    ensures |out| == |es|
    ensures forall i :: 0 <= i < |es| ==> out[i] == MakeSample(trig, now, es[i])
  {
    if |es| == 0 then [] else [MakeSample(trig, now, es[0])] + Samples(trig, now, es[1..])
  }

  /** The loop's state between lines: `pending` and the writer. */
  datatype State = State(pending: Pending, w: Writer<Sample>)

  /** One line as read, the clock when it is handled, and whether a flush's write would succeed. */
  datatype Event = Event(line: string, now: int, writeOk: bool)

  /** Why the loop stopped early: a `ValueError` from `float()`, or an error from a flush. */
  datatype Reason = BadNumber(text: string) | WriteFailed

  /** The outcome of one line: the loop goes on, or an exception leaves it with the writer as it stands. */
  datatype Stepped =
    | Continue(st: State, emitted: seq<Sample>)
    | Abort(w: Writer<Sample>, emitted: seq<Sample>, reason: Reason)

  /** What holds between lines. */
  predicate Inv(st: State) {
    && UniqueIds(st.pending)
    && (forall i :: 0 <= i < |st.pending| ==> !Complete(st.pending[i].fields))
    && |st.w.buf| < MaxSamples
    && Valid(st.w)
  }

  /** The loop state before the first line, at clock `now`. */
  function Init(now: int): (st: State)
    ensures Inv(st)
  {
    State([], Start(now))
  }

  /** One iteration of the `while True` loop. */
  function Step(trig: real -> CosSin, st: State, ev: Event): Stepped {
    StepOn(trig, st, Readings(ev.line), ev.now, ev.writeOk)
  }

  /**
    The loop body once the line's three searches are done: update `pending`,
    emit and pop the completed anchors, then the flush check.
   */
  function StepOn(trig: real -> CosSin, st: State, rs: seq<Reading>, now: int, writeOk: bool): Stepped
    requires |rs| == 3
  {
    match Absorb(st.pending, rs, 0)
    case Raised(t) => Abort(st.w, [], BadNumber(t))
    case Absorbed(ps) =>
      var out := Samples(trig, now, Ready(ps));
      var o := FlushIfDue(st.w.(buf := st.w.buf + out), now, writeOk);
      if o.ok then Continue(State(Keep(ps), o.w), out) else Abort(o.w, out, WriteFailed)
  }

  /** Every line keeps the invariant, and an early exit leaves a sound writer. */
  lemma StepInv(trig: real -> CosSin, st: State, rs: seq<Reading>, now: int, writeOk: bool)
    requires |rs| == 3
    requires Inv(st)
    ensures match StepOn(trig, st, rs, now, writeOk)
      case Continue(st', _) => Inv(st')
      case Abort(w, _, _) => Valid(w)
  {
    AbsorbUnique(st.pending, rs, 0);
    match Absorb(st.pending, rs, 0)
    case Raised(_) =>
    case Absorbed(ps) =>
      FilteredUnique(ps);
      FlushIfDueValid(st.w, Samples(trig, now, Ready(ps)), now, writeOk);
  }

  /** A line neither loses nor duplicates a sample: it only appends its own samples after the old ones. */
  lemma StepConserves(trig: real -> CosSin, st: State, rs: seq<Reading>, now: int, writeOk: bool)
    requires |rs| == 3
    ensures match StepOn(trig, st, rs, now, writeOk)
      case Continue(st', out) => Flatten(st'.w.store) + st'.w.buf == Flatten(st.w.store) + st.w.buf + out
      case Abort(w, out, _) => Flatten(w.store) + w.buf == Flatten(st.w.store) + st.w.buf + out
  {
    match Absorb(st.pending, rs, 0)
    case Raised(_) =>
    case Absorbed(ps) =>
      AppendConserves(st.w, Samples(trig, now, Ready(ps)), now, writeOk);
  }

  /** The lines handled until the input ends or an exception leaves the loop. */
  datatype Ran = Ran(w: Writer<Sample>, emitted: seq<Sample>, stop: Option<Reason>)

  function Run(trig: real -> CosSin, st: State, evs: seq<Event>): Ran
    decreases |evs|
  {
    if |evs| == 0 then Ran(st.w, [], None)
    else
      match Step(trig, st, evs[0])
      case Abort(w, out, why) => Ran(w, out, Some(why))
      case Continue(st', out) =>
        var r := Run(trig, st', evs[1..]);
        Ran(r.w, out + r.emitted, r.stop)
  }

  lemma Associative<T>(a: seq<T>, b: seq<T>, c: seq<T>)
    ensures a + (b + c) == (a + b) + c
  {
  }

  /** Over a whole run the files and the buffer hold every sample emitted, in order. */
  lemma {:induction false} RunConserves(trig: real -> CosSin, st: State, evs: seq<Event>)
    ensures var r := Run(trig, st, evs);
      Flatten(r.w.store) + r.w.buf == Flatten(st.w.store) + st.w.buf + r.emitted
    decreases |evs|
  {
    if |evs| > 0 {
      var ev := evs[0];
      StepConserves(trig, st, Readings(ev.line), ev.now, ev.writeOk);
      match Step(trig, st, ev)
      case Abort(w, out, why) =>
      case Continue(st', out) =>
        RunConserves(trig, st', evs[1..]);
        var r := Run(trig, st', evs[1..]);
        Associative(Flatten(st.w.store) + st.w.buf, out, r.emitted);
    }
  }

  /**
    Names stay fresh over a run, and the buffer stays below
    `FILE_MAX_SAMPLES` unless the run ended on an error.
   */
  lemma {:induction false} RunValid(trig: real -> CosSin, st: State, evs: seq<Event>)
    requires Inv(st)
    ensures var r := Run(trig, st, evs);
      Valid(r.w) && (r.stop.None? ==> |r.w.buf| < MaxSamples)
    decreases |evs|
  {
    if |evs| > 0 {
      var ev := evs[0];
      StepInv(trig, st, Readings(ev.line), ev.now, ev.writeOk);
      match Step(trig, st, ev)
      case Abort(w, out, why) =>
      case Continue(st', out) =>
        RunValid(trig, st', evs[1..]);
    }
  }

  /** The whole program: the loop from start-up, then the flush in `finally`, whose error is only printed. */
  datatype Session = Session(w: Writer<Sample>, emitted: seq<Sample>, stop: Option<Reason>, finalFlushOk: bool)

  function Main(trig: real -> CosSin, start: int, evs: seq<Event>, endNow: int, endWriteOk: bool): Session {
    var r := Run(trig, Init(start), evs);
    var f := Flush(r.w, endNow, endWriteOk);
    Session(f.w, r.emitted, r.stop, f.ok)
  }

  /**
    When the final flush succeeds, every sample the program emitted is in the
    files, in order, exactly once, whether the loop ended by interrupt, on a
    bad number or on a failed flush; when it fails, exactly the unwritten tail
    remains buffered.
   */
  lemma MainNoLoss(trig: real -> CosSin, start: int, evs: seq<Event>, endNow: int, endWriteOk: bool)
    ensures var m := Main(trig, start, evs, endNow, endWriteOk);
      && Flatten(m.w.store) + m.w.buf == m.emitted
      && (m.finalFlushOk ==> Flatten(m.w.store) == m.emitted)
      && Valid(m.w)
  {
    RunFromStart(trig, Init(start), evs);
    var r := Run(trig, Init(start), evs);
    FinalFlush(r.w, r.emitted, endNow, endWriteOk);
  }

  /** A run from a state with nothing written or buffered holds, in its files and buffer, exactly the samples it emitted. */
  lemma RunFromStart(trig: real -> CosSin, st: State, evs: seq<Event>)
    requires Inv(st) && st.w.buf == [] && st.w.store == []
    ensures var r := Run(trig, st, evs);
      Flatten(r.w.store) + r.w.buf == r.emitted && Valid(r.w)
  {
    RunConserves(trig, st, evs);
    RunValid(trig, st, evs);
    var r := Run(trig, st, evs);
    assert Flatten(st.w.store) + st.w.buf + r.emitted == r.emitted;
  }

  /**
    A line on which none of the three patterns matches emits nothing and
    leaves `pending` as it was; only the flush check runs, so unless the file
    is due the whole state stays as it was.
   */
  lemma NoMatchLine(trig: real -> CosSin, st: State, ev: Event)
    requires Inv(st)
    requires forall k :: Search(ev.line, k).None?
    ensures Step(trig, st, ev).emitted == []
    ensures Step(trig, st, ev).Continue? ==> Step(trig, st, ev).st.pending == st.pending
    ensures Step(trig, st, ev).Abort? ==> Step(trig, st, ev).reason == WriteFailed
    ensures !Due(st.w, ev.now) ==> Step(trig, st, ev) == Continue(st, [])
  {
    var rs := Readings(ev.line);
    assert rs == [NoMatch, NoMatch, NoMatch] by {
      assert Search(ev.line, Distance).None? && Search(ev.line, Azimuth).None? && Search(ev.line, Elevation).None?;
    }
    NoMatchReadings(trig, st, rs, ev.now, ev.writeOk);
  }

  lemma NoMatchReadings(trig: real -> CosSin, st: State, rs: seq<Reading>, now: int, writeOk: bool)
    requires Inv(st)
    requires rs == [NoMatch, NoMatch, NoMatch]
    ensures var r := StepOn(trig, st, rs, now, writeOk);
      && r.emitted == []
      && (r.Continue? ==> r.st.pending == st.pending)
      && (r.Abort? ==> r.reason == WriteFailed)
      && (!Due(st.w, now) ==> r == Continue(st, []))
  {
    assert Absorb(st.pending, rs, 0) == Absorbed(st.pending);
    SweepNoneComplete(st.pending);
    assert st.w.(buf := st.w.buf + []) == st.w;
  }

  /**
    Every other anchor stays as it was: after a line that goes on, an anchor
    the line names in none of its readings has the same entry, or none, as before.
   */
  lemma UntouchedReadings(trig: real -> CosSin, st: State, rs: seq<Reading>, now: int, writeOk: bool, a: nat)
    requires Inv(st) && |rs| == 3
    requires forall j :: 0 <= j < 3 && rs[j].Found? ==> rs[j].id != a
    ensures var r := StepOn(trig, st, rs, now, writeOk);
      r.Continue? ==> Find(r.st.pending, a) == Find(st.pending, a)
  {
    AbsorbFrame(st.pending, rs, 0, a);
    AbsorbUnique(st.pending, rs, 0);
    match Absorb(st.pending, rs, 0)
    case Raised(_) =>
    case Absorbed(ps) =>
      SweepFind(ps, a);
      if Find(st.pending, a).Some? {
        FindWitness(st.pending, a);
      }
  }

  /** The same for a line as read: only the anchors its reports name can change. */
  lemma UntouchedAnchor(trig: real -> CosSin, st: State, ev: Event, a: nat)
    requires Inv(st)
    requires ReadField(ev.line, Distance).Found? ==> ReadField(ev.line, Distance).id != a
    requires ReadField(ev.line, Azimuth).Found? ==> ReadField(ev.line, Azimuth).id != a
    requires ReadField(ev.line, Elevation).Found? ==> ReadField(ev.line, Elevation).id != a
    ensures Step(trig, st, ev).Continue? ==> Find(Step(trig, st, ev).st.pending, a) == Find(st.pending, a)
  {
    var rs := Readings(ev.line);
    assert rs[0] == ReadField(ev.line, Distance) && rs[1] == ReadField(ev.line, Azimuth)
      && rs[2] == ReadField(ev.line, Elevation);
    UntouchedReadings(trig, st, rs, ev.now, ev.writeOk, a);
  }

  /**
    A captured number that `int()` or `float()` rejects ends the loop: the
    line emits nothing and the writer is left as it was. A `BadNumber` exit
    happens on no other line.
   */
  lemma BadNumberAborts(trig: real -> CosSin, st: State, ev: Event)
    ensures var r := Step(trig, st, ev);
      (r.Abort? && r.reason.BadNumber?) <==>
        (ReadField(ev.line, Distance).Malformed? || ReadField(ev.line, Azimuth).Malformed?
         || ReadField(ev.line, Elevation).Malformed?)
    ensures var r := Step(trig, st, ev);
      r.Abort? && r.reason.BadNumber? ==> r.w == st.w && r.emitted == [] && Rejected(r.reason.text)
  {
    var rs := Readings(ev.line);
    BadNumberReadings(trig, st, rs, ev.now, ev.writeOk);
  }

  lemma BadNumberReadings(trig: real -> CosSin, st: State, rs: seq<Reading>, now: int, writeOk: bool)
    requires |rs| == 3
    requires rs[0].Malformed? ==> Rejected(rs[0].text)
    requires rs[1].Malformed? ==> Rejected(rs[1].text)
    requires rs[2].Malformed? ==> Rejected(rs[2].text)
    ensures var r := StepOn(trig, st, rs, now, writeOk);
      (r.Abort? && r.reason.BadNumber?) <==> (rs[0].Malformed? || rs[1].Malformed? || rs[2].Malformed?)
    ensures var r := StepOn(trig, st, rs, now, writeOk);
      r.Abort? && r.reason.BadNumber? ==> r.w == st.w && r.emitted == [] && Rejected(r.reason.text)
  {
    AbsorbRaises(st.pending, rs, 0);
  }

  /** `Absorb` raises exactly when some remaining reading is malformed, with that reading's text. */
  lemma {:induction false} AbsorbRaises(ps: Pending, rs: seq<Reading>, i: nat)
    requires |rs| == 3 && i <= 3
    ensures var r := Absorb(ps, rs, i);
      && (r.Raised? <==> exists j :: i <= j < 3 && rs[j].Malformed?)
      && (r.Raised? ==> exists j :: i <= j < 3 && rs[j] == Malformed(r.text))
    decreases 3 - i
  {
    if i < 3 {
      match rs[i]
      case Malformed(t) =>
      case NoMatch => AbsorbRaises(ps, rs, i + 1);
      case Found(id, v) => AbsorbRaises(Update(ps, id, KindAt(i), v), rs, i + 1);
    }
  }

  /** The field of a sample that holds the given kind's value. */
  function SampleField(s: Sample, k: Kind): real {
    match k
    case Distance => s.r
    case Azimuth => s.az
    case Elevation => s.el
  }

  /** Readings after the `i`-th are for other kinds, so they leave an anchor's `k` field alone. */
  lemma {:induction false} AbsorbKeeps(ps: Pending, rs: seq<Reading>, i: nat, a: nat, k: Kind, v: real)
    requires |rs| == 3 && i <= 3
    requires forall j :: i <= j < 3 ==> KindAt(j) != k
    requires Find(ps, a).Some? && Get(Find(ps, a).value, k) == Some(v)
    ensures var r := Absorb(ps, rs, i);
      r.Absorbed? ==> Find(r.pending, a).Some? && Get(Find(r.pending, a).value, k) == Some(v)
    decreases 3 - i
  {
    if i < 3 {
      match rs[i]
      case Malformed(_) =>
      case NoMatch => AbsorbKeeps(ps, rs, i + 1, a, k, v);
      case Found(id, x) => AbsorbKeeps(Update(ps, id, KindAt(i), x), rs, i + 1, a, k, v);
    }
  }

  /** Once a line is absorbed, each found reading is the value its anchor holds for that kind. */
  lemma {:induction false} AbsorbLatest(ps: Pending, rs: seq<Reading>, i: nat, j: nat)
    requires |rs| == 3 && i <= j < 3 && rs[j].Found?
    ensures var r := Absorb(ps, rs, i);
      r.Absorbed? ==>
        Find(r.pending, rs[j].id).Some? && Get(Find(r.pending, rs[j].id).value, KindAt(j)) == Some(rs[j].value)
    decreases 3 - i
  {
    if i < j {
      match rs[i]
      case Malformed(_) =>
      case NoMatch => AbsorbLatest(ps, rs, i + 1, j);
      case Found(id, x) => AbsorbLatest(Update(ps, id, KindAt(i), x), rs, i + 1, j);
    } else {
      AbsorbKeeps(Update(ps, rs[j].id, KindAt(j), rs[j].value), rs, j + 1, rs[j].id, KindAt(j), rs[j].value);
    }
  }

  /** The `i`-th sample emitted carries the `i`-th entry's id and values. */
  lemma SampleCarries(trig: real -> CosSin, now: int, es: Pending, i: nat, k: Kind)
    requires forall j :: 0 <= j < |es| ==> Complete(es[j].fields)
    requires i < |es|
    ensures var s := Samples(trig, now, es)[i];
      s.id == es[i].id && Get(es[i].fields, k) == Some(SampleField(s, k))
  {
    assert Samples(trig, now, es)[i] == MakeSample(trig, now, es[i]);
  }

  /**
    After the sweep an anchor's value for a kind is either still held in
    `pending` or carried by the sample emitted for it.
   */
  lemma SweepLatest(trig: real -> CosSin, now: int, ps: Pending, a: nat, k: Kind, v: real)
    requires UniqueIds(ps)
    requires Find(ps, a).Some? && Get(Find(ps, a).value, k) == Some(v)
    ensures var kept, out := Keep(ps), Samples(trig, now, Ready(ps));
      if Find(kept, a).Some? then Get(Find(kept, a).value, k) == Some(v)
      else exists i :: 0 <= i < |out| && out[i].id == a && SampleField(out[i], k) == v
  {
    SweepFind(ps, a);
    var f := Find(ps, a).value;
    if Complete(f) {
      var es := Ready(ps);
      assert Find(es, a) == Some(f);
      FindWitness(es, a);
      var i :| 0 <= i < |es| && es[i].id == a && es[i].fields == f;
      SampleCarries(trig, now, es, i, k);
    } else {
      assert Find(Keep(ps), a) == Some(f);
    }
  }

  /**
    The `j`-th reading of a line that goes on is not lost: either its anchor
    completed and was emitted with that value, and is gone from `pending`, or
    the anchor is still pending and holds that value.
   */
  lemma LatestReading(trig: real -> CosSin, st: State, rs: seq<Reading>, now: int, writeOk: bool, j: nat)
    requires Inv(st)
    requires |rs| == 3 && j < 3 && rs[j].Found?
    ensures var r := StepOn(trig, st, rs, now, writeOk);
      var a, k, v := rs[j].id, KindAt(j), rs[j].value;
      r.Continue? ==>
        || (Find(r.st.pending, a).Some? && Get(Find(r.st.pending, a).value, k) == Some(v))
        || (Find(r.st.pending, a).None? &&
            exists i :: 0 <= i < |r.emitted| && r.emitted[i].id == a && SampleField(r.emitted[i], k) == v)
  {
    AbsorbUnique(st.pending, rs, 0);
    AbsorbLatest(st.pending, rs, 0, j);
    match Absorb(st.pending, rs, 0)
    case Raised(_) =>
    case Absorbed(ps) => SweepLatest(trig, now, ps, rs[j].id, KindAt(j), rs[j].value);
  }

  /**
    Last value wins, and nothing found is dropped: after a line that goes on,
    the value the line gives an anchor for a kind is either in a sample the
    line emitted for that anchor or held for the anchor in `pending`.
   */
  lemma LatestValueWins(trig: real -> CosSin, st: State, ev: Event, k: Kind)
    requires Inv(st)
    requires ReadField(ev.line, k).Found?
    ensures var r := Step(trig, st, ev);
      var a, v := ReadField(ev.line, k).id, ReadField(ev.line, k).value;
      r.Continue? ==>
        || (Find(r.st.pending, a).Some? && Get(Find(r.st.pending, a).value, k) == Some(v))
        || (Find(r.st.pending, a).None? &&
            exists i :: 0 <= i < |r.emitted| && r.emitted[i].id == a && SampleField(r.emitted[i], k) == v)
  {
    var j := if k == Distance then 0 else if k == Azimuth then 1 else 2;
    LatestReading(trig, st, Readings(ev.line), ev.now, ev.writeOk, j);
  }

  /**
    A line that emits nothing with the buffer empty leaves the writer as it
    was, even when the file is due: flushing an empty buffer does not restart
    the file's age.
   */
  lemma QuietLineKeepsWriter(trig: real -> CosSin, st: State, rs: seq<Reading>, now: int, writeOk: bool)
    requires |rs| == 3 && st.w.buf == []
    ensures var r := StepOn(trig, st, rs, now, writeOk);
      r.Continue? && r.emitted == [] ==> r.st.w == st.w
  {
    match Absorb(st.pending, rs, 0)
    case Raised(_) =>
    case Absorbed(ps) =>
      var out := Samples(trig, now, Ready(ps));
      if out == [] {
        assert st.w.(buf := st.w.buf + out) == st.w;
      }
  }

  /** A line handled when the file is due, with nothing buffered, writes what it emits as one file. */
  lemma DueLine(trig: real -> CosSin, st: State, rs: seq<Reading>, now: int)
    requires |rs| == 3
    requires st.w.buf == [] && st.w.fileStart + MaxAgeNs <= now
    ensures var r := StepOn(trig, st, rs, now, true);
      r.Continue? && |r.emitted| > 0 ==>
        r.st.w.store == st.w.store + [Batch(st.w.fname, r.emitted)] && r.st.w.buf == []
  {
    match Absorb(st.pending, rs, 0)
    case Raised(_) =>
    case Absorbed(ps) =>
      var out := Samples(trig, now, Ready(ps));
      assert st.w.buf + out == out;
  }

  /**
    After an idle gap of a second or more with nothing buffered, the first
    samples are not held back: the line that emits them writes exactly them as
    one file, even when a quiet line came between.
   */
  lemma IdleGap(trig: real -> CosSin, st: State, quiet: seq<Reading>, rs: seq<Reading>,
                now1: int, ok1: bool, now2: int)
    requires |quiet| == 3 && |rs| == 3
    requires st.w.buf == [] && st.w.fileStart + MaxAgeNs <= now1 <= now2
    requires StepOn(trig, st, quiet, now1, ok1).Continue? && StepOn(trig, st, quiet, now1, ok1).emitted == []
    ensures var r := StepOn(trig, StepOn(trig, st, quiet, now1, ok1).st, rs, now2, true);
      r.Continue? && |r.emitted| > 0 ==>
        r.st.w.store == st.w.store + [Batch(st.w.fname, r.emitted)] && r.st.w.buf == []
  {
    QuietLineKeepsWriter(trig, st, quiet, now1, ok1);
    DueLine(trig, StepOn(trig, st, quiet, now1, ok1).st, rs, now2);
  }
}

=== FILE: text.dfy ===
/**
  Character classes and scanning helpers shared by the regular expressions of the
  serial loggers and of the volume listener.
 */
module Text {

  /** `\d`, restricted to ASCII digits. */
  predicate IsDigit(c: char) {
    '0' <= c <= '9'
  }

  /** `\s` of Python's `re` on `str` patterns: the Unicode whitespace characters. */
  predicate IsSpace(c: char) {
    var n := c as int;
    || 9 <= n <= 13
    || 28 <= n <= 32
    || n == 0x85
    || n == 0xA0
    || n == 0x1680
    || 0x2000 <= n <= 0x200A
    || n == 0x2028
    || n == 0x2029
    || n == 0x202F
    || n == 0x205F
    || n == 0x3000
  }

  /** The character class `[-\d.]` of the value capture. */
  predicate IsValueChar(c: char) {
    c == '-' || c == '.' || IsDigit(c)
  }

  predicate All(s: string, p: char -> bool) {
    forall i :: 0 <= i < |s| ==> p(s[i])
  }

  /**
    The end of the longest run of characters satisfying `p` that starts at `i`:
    this is where a greedy `p*` starting at `i` stops.
   */
  function Span(s: string, i: nat, p: char -> bool): (j: nat)
    requires i <= |s|
    ensures i <= j <= |s|
    ensures forall k :: i <= k < j ==> p(s[k])
    ensures j == |s| || !p(s[j])
    decreases |s| - i
  {
    if i == |s| || !p(s[i]) then i else Span(s, i + 1, p)
  }

  /** Any run of `p` characters starting at `i` and ended by a non-`p` character is the greedy one. */
  lemma {:induction false} SpanUnique(s: string, i: nat, j: nat, p: char -> bool)
    requires i <= j <= |s|
    requires forall k :: i <= k < j ==> p(s[k])
    requires j == |s| || !p(s[j])
    ensures Span(s, i, p) == j
    decreases j - i
  {
    if i < j {
      SpanUnique(s, i + 1, j, p);
    }
  }

  /** The value of a decimal digit string, as `int()` reads one short enough to convert. */
  function DigitsValue(d: string): (n: nat)
    requires All(d, IsDigit)
    ensures n < Pow10(|d|)
  {
    if |d| == 0 then 0
    else 10 * DigitsValue(d[..|d| - 1]) + (d[|d| - 1] as int - '0' as int)
  }

  /** Leading zeros do not change the value: `int("007")` is `int("7")`. */
  lemma {:induction false} DigitsLeadingZero(d: string)
    requires All(d, IsDigit)
    ensures All(['0'] + d, IsDigit) && DigitsValue(['0'] + d) == DigitsValue(d)
    decreases |d|
  {
    if |d| > 0 {
      var e := d[..|d| - 1];
      assert All(e, IsDigit);
      assert (['0'] + d)[..|d|] == ['0'] + e;
      DigitsLeadingZero(e);
    }
  }

  function Pow10(k: nat): (p: nat)
    ensures p >= 1
  {
    if k == 0 then 1 else 10 * Pow10(k - 1)
  }

  /** Characters that all satisfy `p` form a slice that does. */
  lemma AllOfSlice(s: string, i: nat, j: nat, p: char -> bool)
    requires i <= j <= |s|
    requires forall k :: i <= k < j ==> p(s[k])
    ensures All(s[i..j], p)
  {
    forall n | 0 <= n < j - i
      ensures p(s[i..j][n])
    {
      assert s[i..j][n] == s[i + n];
    }
  }

  /** The literal `lit` occurs in `s` at position `i`. */
  predicate PrefixAt(s: string, i: nat, lit: string)
    decreases |lit|
  {
    && i + |lit| <= |s|
    && (|lit| == 0 || (s[i] == lit[0] && PrefixAt(s, i + 1, lit[1..])))
  }

  lemma {:induction false} PrefixAtSlice(s: string, i: nat, lit: string)
    ensures PrefixAt(s, i, lit) <==> i + |lit| <= |s| && s[i..i + |lit|] == lit
    decreases |lit|
  {
    if |lit| > 0 && i + |lit| <= |s| {
      PrefixAtSlice(s, i + 1, lit[1..]);
      assert s[i..i + |lit|] == [s[i]] + s[i + 1..i + |lit|];
      assert lit == [lit[0]] + lit[1..];
    }
  }

  /** Each character of a literal occurring at `i` sits at its offset from `i`. */
  lemma PrefixAtChars(s: string, i: nat, lit: string)
    requires PrefixAt(s, i, lit)
    ensures forall n :: i <= n < i + |lit| ==> s[n] == lit[n - i]
  {
    PrefixAtSlice(s, i, lit);
    forall n | i <= n < i + |lit|
      ensures s[n] == lit[n - i]
    {
      assert s[i..i + |lit|][n - i] == s[n];
    }
  }
}

=== FILE: vectors.dfy ===
/**
  The vector algebra of the vectoriser, over exact reals. The trigonometry is
  not modelled: each angle enters as its (cosine, sine) pair, and facts that
  need the Pythagorean identity take it as a precondition.
 */
module Vectors {

  /** The cosine and sine of one angle. */
  datatype CosSin = CosSin(c: real, s: real)

  predicate OnUnitCircle(a: CosSin) {
    a.c * a.c + a.s * a.s == 1.0
  }

  /** The angle zero. */
  const Zero: CosSin := CosSin(1.0, 0.0)

  /** The angle negated: cosine is even, sine is odd. */
  function Neg(a: CosSin): (b: CosSin)
    ensures OnUnitCircle(a) ==> OnUnitCircle(b)
  {
    CosSin(a.c, -a.s)
  }

  datatype Vec3 = Vec3(x: real, y: real, z: real)

  /** A 3x3 matrix as three rows. */
  datatype Mat3 = Mat3(r0: Vec3, r1: Vec3, r2: Vec3)

  function Dot(a: Vec3, b: Vec3): real {
    a.x * b.x + a.y * b.y + a.z * b.z
  }

  function NormSq(v: Vec3): real {
    Dot(v, v)
  }

  /** `apply_R`: the matrix-vector product `m v`. */
  function Apply(m: Mat3, v: Vec3): Vec3 {
    Vec3(Dot(m.r0, v), Dot(m.r1, v), Dot(m.r2, v))
  }

  /** The matrix product `a b`, row by row. */
  function MatMul(a: Mat3, b: Mat3): Mat3 {
    Mat3(RowTimes(a.r0, b), RowTimes(a.r1, b), RowTimes(a.r2, b))
  }

  /** The row vector `v` times the matrix `m`. */
  function RowTimes(v: Vec3, m: Mat3): Vec3 {
    Vec3(
      v.x * m.r0.x + v.y * m.r1.x + v.z * m.r2.x,
      v.x * m.r0.y + v.y * m.r1.y + v.z * m.r2.y,
      v.x * m.r0.z + v.y * m.r1.z + v.z * m.r2.z)
  }

  /** The pass-through matrix used for anchors without a configured pose. */
  const Identity: Mat3 := Mat3(Vec3(1.0, 0.0, 0.0), Vec3(0.0, 1.0, 0.0), Vec3(0.0, 0.0, 1.0))

  /** Right-handed rotation about +Z. */
  function Rz(a: CosSin): Mat3 {
    Mat3(Vec3(a.c, -a.s, 0.0), Vec3(a.s, a.c, 0.0), Vec3(0.0, 0.0, 1.0))
  }

  /** Right-handed rotation about +Y. */
  function Ry(a: CosSin): Mat3 {
    Mat3(Vec3(a.c, 0.0, a.s), Vec3(0.0, 1.0, 0.0), Vec3(-a.s, 0.0, a.c))
  }

  /** Right-handed rotation about +X. */
  function Rx(a: CosSin): Mat3 {
    Mat3(Vec3(1.0, 0.0, 0.0), Vec3(0.0, a.c, -a.s), Vec3(0.0, a.s, a.c))
  }

  /**
    `r_local_from_az_el`: the local vector of a report with distance `dist`,
    azimuth `az` (positive to the right) and elevation `el` (positive down),
    in axes x forward, y left, z up. Given the Pythagorean identity for both
    angles its length is the distance.
   */
  function LocalVector(dist: real, az: CosSin, el: CosSin): (v: Vec3)
    ensures OnUnitCircle(az) && OnUnitCircle(el) ==> NormSq(v) == dist * dist
  {
    var v := Vec3(dist * el.c * az.c, -dist * el.c * az.s, -dist * el.s);
    if OnUnitCircle(az) && OnUnitCircle(el) then
      LocalVectorLength(dist, az, el);
      v
    else
      v
  }

  /**
    The axis convention of the docstring: a report straight ahead lies on +x;
    a positive azimuth (to the right) gives a negative y (y points left); a
    positive elevation (down) gives a negative z (z points up).
   */
  lemma LocalConvention(dist: real, az: CosSin, el: CosSin)
    requires dist > 0.0
    ensures LocalVector(dist, Zero, Zero) == Vec3(dist, 0.0, 0.0)
    ensures az.c > 0.0 && el.c > 0.0 ==> LocalVector(dist, az, el).x > 0.0
    ensures az.s > 0.0 && el.c > 0.0 ==> LocalVector(dist, az, el).y < 0.0
    ensures az.s < 0.0 && el.c > 0.0 ==> LocalVector(dist, az, el).y > 0.0
    ensures el.s > 0.0 ==> LocalVector(dist, az, el).z < 0.0
    ensures el.s < 0.0 ==> LocalVector(dist, az, el).z > 0.0
  {
    var v := LocalVector(dist, az, el);
    if el.c > 0.0 {
      var de := dist * el.c;
      assert de > 0.0;
      assert v.x == de * az.c && v.y == -(de * az.s);
      if az.c > 0.0 { PositiveProduct(de, az.c); }
      if az.s > 0.0 { PositiveProduct(de, az.s); }
      if az.s < 0.0 { PositiveProduct(de, -az.s); }
    }
    if el.s > 0.0 { PositiveProduct(dist, el.s); }
    if el.s < 0.0 { PositiveProduct(dist, -el.s); }
  }

  lemma PositiveProduct(a: real, b: real)
    requires a > 0.0 && b > 0.0
    ensures a * b > 0.0
  {
  }

  lemma LocalVectorLength(dist: real, az: CosSin, el: CosSin)
    requires OnUnitCircle(az) && OnUnitCircle(el)
    ensures NormSq(Vec3(dist * el.c * az.c, -dist * el.c * az.s, -dist * el.s)) == dist * dist
  {
    var d2, e, a := dist * dist, el.c * el.c, az.c * az.c + az.s * az.s;
    calc {
      NormSq(Vec3(dist * el.c * az.c, -dist * el.c * az.s, -dist * el.s));
      d2 * e * a + d2 * (el.s * el.s);
      { assert a == 1.0; }
      d2 * (e + el.s * el.s);
      d2;
    }
  }

  /**
    `rot_zyx` as the code computes it: the rows of `Rz(yaw)` combined with the
    pitch pair and then with the roll pair, entry by entry.
   */
  function RotZyx(yaw: CosSin, pitch: CosSin, roll: CosSin): Mat3 {
    var cy, sy := yaw.c, yaw.s;
    var cp, sp := pitch.c, pitch.s;
    var cr, sr := roll.c, roll.s;
    var r00, r01, r02 := cy, -sy, 0.0;
    var r10, r11, r12 := sy, cy, 0.0;
    var r20, r21, r22 := 0.0, 0.0, 1.0;
    var a00, a01, a02 := r00 * cp + r02 * sp, r01 * cp + r02 * 0.0, -r00 * sp + r02 * cp;
    var a10, a11, a12 := r10 * cp + r12 * sp, r11 * cp + r12 * 0.0, -r10 * sp + r12 * cp;
    var a20, a21, a22 := r20 * cp + r22 * sp, r21 * cp + r22 * 0.0, -r20 * sp + r22 * cp;
    Mat3(
      Vec3(a00, a01 * cr - a02 * sr, a01 * sr + a02 * cr),
      Vec3(a10, a11 * cr - a12 * sr, a11 * sr + a12 * cr),
      Vec3(a20, a21 * cr - a22 * sr, a21 * sr + a22 * cr))
  }

  /** The matrix the code's "Ry" step multiplies by: centre entry `cp`, `sp` signs transposed. */
  function PitchStep(a: CosSin): Mat3 {
    Mat3(Vec3(a.c, 0.0, -a.s), Vec3(0.0, a.c, 0.0), Vec3(a.s, 0.0, a.c))
  }

  /**
    `rot_zyx` as the docstring describes it, `Rz(yaw) Ry(pitch) Rx(roll)`,
    multiplied out into the usual yaw-pitch-roll matrix.
   */
  function RotZyxIntended(y: CosSin, p: CosSin, r: CosSin): Mat3 {
    Mat3(
      Vec3(y.c * p.c, -y.s * r.c + y.c * p.s * r.s, y.s * r.s + y.c * p.s * r.c),
      Vec3(y.s * p.c, y.c * r.c + y.s * p.s * r.s, -y.c * r.s + y.s * p.s * r.c),
      Vec3(-p.s, p.c * r.s, p.c * r.c))
  }

  /** The entries of `Rz(yaw) Ry(pitch)`. */
  function YawPitchEntries(y: CosSin, p: CosSin): Mat3 {
    Mat3(Vec3(y.c * p.c, -y.s, y.c * p.s), Vec3(y.s * p.c, y.c, y.s * p.s), Vec3(-p.s, 0.0, p.c))
  }

  /** The entries of `Rz(yaw)` times the code's pitch step. */
  function YawPitchStepEntries(y: CosSin, p: CosSin): Mat3 {
    Mat3(Vec3(y.c * p.c, -y.s * p.c, -y.c * p.s), Vec3(y.s * p.c, y.c * p.c, -y.s * p.s), Vec3(p.s, 0.0, p.c))
  }

  /** Pass-through: the identity leaves every vector as it is. */
  lemma ApplyIdentity(v: Vec3)
    ensures Apply(Identity, v) == v
  {
  }

  /** Applying a product is applying its factors in turn. */
  lemma ApplyMatMul(a: Mat3, b: Mat3, v: Vec3)
    ensures Apply(MatMul(a, b), v) == Apply(a, Apply(b, v))
  {
  }

  lemma YawPitchProduct(y: CosSin, p: CosSin)
    ensures MatMul(Rz(y), Ry(p)) == YawPitchEntries(y, p)
  {
  }

  lemma YawPitchStepProduct(y: CosSin, p: CosSin)
    ensures MatMul(Rz(y), PitchStep(p)) == YawPitchStepEntries(y, p)
  {
  }

  lemma ZyxProductRows(y: CosSin, p: CosSin, r: CosSin)
    ensures MatMul(YawPitchEntries(y, p), Rx(r)).r0 == RotZyxIntended(y, p, r).r0
    ensures MatMul(YawPitchEntries(y, p), Rx(r)).r1 == RotZyxIntended(y, p, r).r1
    ensures MatMul(YawPitchEntries(y, p), Rx(r)).r2 == RotZyxIntended(y, p, r).r2
  {
  }

  /** The intended matrix is the docstring's product. */
  lemma IntendedIsProduct(yaw: CosSin, pitch: CosSin, roll: CosSin)
    ensures RotZyxIntended(yaw, pitch, roll) == MatMul(MatMul(Rz(yaw), Ry(pitch)), Rx(roll))
  {
    YawPitchProduct(yaw, pitch);
    ZyxProductRows(yaw, pitch, roll);
  }

  /** The code's `rot_zyx` is `Rz(yaw)`, then the pitch step, then a rotation by minus the roll. */
  lemma RotZyxFactors(yaw: CosSin, pitch: CosSin, roll: CosSin)
    ensures RotZyx(yaw, pitch, roll) == MatMul(MatMul(Rz(yaw), PitchStep(pitch)), Rx(Neg(roll)))
  {
    YawPitchStepProduct(yaw, pitch);
    var a := YawPitchStepEntries(yaw, pitch);
    var m, n := RotZyx(yaw, pitch, roll), MatMul(a, Rx(Neg(roll)));
    assert m.r0 == n.r0;
    assert m.r1 == n.r1;
    assert m.r2 == n.r2;
  }

  /** All angles zero: `rot_zyx` is the identity. */
  lemma RotZyxAllZero()
    ensures RotZyx(Zero, Zero, Zero) == Identity
  {
  }

  /** Pitch and roll zero: `rot_zyx` is the yaw rotation, as the docstring's product is. */
  lemma RotZyxYawOnly(yaw: CosSin)
    ensures RotZyx(yaw, Zero, Zero) == Rz(yaw)
    ensures RotZyxIntended(yaw, Zero, Zero) == Rz(yaw)
  {
  }

  /** Pitch zero: `rot_zyx` is `Rz(yaw) Rx(-roll)`, a rotation, but with the roll reversed. */
  lemma RotZyxLevel(yaw: CosSin, roll: CosSin)
    ensures RotZyx(yaw, Zero, roll) == MatMul(Rz(yaw), Rx(Neg(roll)))
  {
    var m, n := RotZyx(yaw, Zero, roll), MatMul(Rz(yaw), Rx(Neg(roll)));
    assert m.r0 == n.r0;
    assert m.r1 == n.r1;
    assert m.r2 == n.r2;
  }

  lemma RzPreservesNorm(a: CosSin, v: Vec3)
    requires OnUnitCircle(a)
    ensures NormSq(Apply(Rz(a), v)) == NormSq(v)
  {
    PlaneRotation(a, v.x, v.y);
  }

  lemma RyPreservesNorm(a: CosSin, v: Vec3)
    requires OnUnitCircle(a)
    ensures NormSq(Apply(Ry(a), v)) == NormSq(v)
  {
    PlaneRotation(a, v.z, v.x);
  }

  lemma RxPreservesNorm(a: CosSin, v: Vec3)
    requires OnUnitCircle(a)
    ensures NormSq(Apply(Rx(a), v)) == NormSq(v)
  {
    PlaneRotation(a, v.y, v.z);
  }

  /** A rotation in a coordinate plane keeps the sum of squares of the two coordinates. */
  lemma PlaneRotation(a: CosSin, p: real, q: real)
    requires OnUnitCircle(a)
    ensures (a.c * p - a.s * q) * (a.c * p - a.s * q) + (a.s * p + a.c * q) * (a.s * p + a.c * q)
      == p * p + q * q
  {
    var k := a.c * a.c + a.s * a.s;
    calc {
      (a.c * p - a.s * q) * (a.c * p - a.s * q) + (a.s * p + a.c * q) * (a.s * p + a.c * q);
      k * (p * p) + k * (q * q);
      { assert k == 1.0; }
      p * p + q * q;
    }
  }

  /** The docstring's product keeps lengths for any angles on the unit circle. */
  lemma IntendedPreservesNorm(yaw: CosSin, pitch: CosSin, roll: CosSin, v: Vec3)
    requires OnUnitCircle(yaw) && OnUnitCircle(pitch) && OnUnitCircle(roll)
    ensures NormSq(Apply(RotZyxIntended(yaw, pitch, roll), v)) == NormSq(v)
  {
    var w := Apply(Rx(roll), v);
    IntendedIsProduct(yaw, pitch, roll);
    ApplyMatMul(MatMul(Rz(yaw), Ry(pitch)), Rx(roll), v);
    ApplyMatMul(Rz(yaw), Ry(pitch), w);
    RxPreservesNorm(roll, v);
    RyPreservesNorm(pitch, w);
    RzPreservesNorm(yaw, Apply(Ry(pitch), w));
  }

  /** With zero pitch the code's matrix keeps lengths too. */
  lemma LevelPreservesNorm(yaw: CosSin, roll: CosSin, v: Vec3)
    requires OnUnitCircle(yaw) && OnUnitCircle(roll)
    ensures NormSq(Apply(RotZyx(yaw, Zero, roll), v)) == NormSq(v)
  {
    RotZyxLevel(yaw, roll);
    ApplyMatMul(Rz(yaw), Rx(Neg(roll)), v);
    RxPreservesNorm(Neg(roll), v);
    RzPreservesNorm(yaw, Apply(Rx(Neg(roll)), v));
  }

  /** Quarter turn, for the counterexamples. */
  const Quarter: CosSin := CosSin(0.0, 1.0)

  /**
    At a pitch of 90 degrees the code's matrix sends the unit vector +Y to the
    zero vector, so it is not a rotation; the docstring's product keeps +Y.
   */
  lemma PitchQuarterCollapses()
    ensures OnUnitCircle(Quarter)
    ensures Apply(RotZyx(Zero, Quarter, Zero), Vec3(0.0, 1.0, 0.0)) == Vec3(0.0, 0.0, 0.0)
    ensures Apply(RotZyxIntended(Zero, Quarter, Zero), Vec3(0.0, 1.0, 0.0)) == Vec3(0.0, 1.0, 0.0)
  {
    assert Quarter.c == 0.0 && Quarter.s == 1.0 && Zero.c == 1.0 && Zero.s == 0.0;
    assert RotZyx(Zero, Quarter, Zero)
      == Mat3(Vec3(0.0, 0.0, -1.0), Vec3(0.0, 0.0, 0.0), Vec3(1.0, 0.0, 0.0));
  }

  /**
    At a roll of 90 degrees the code's matrix turns +Y to -Z, the opposite of
    the right-handed roll about +X the docstring promises.
   */
  lemma RollQuarterReversed()
    ensures Apply(RotZyx(Zero, Zero, Quarter), Vec3(0.0, 1.0, 0.0)) == Vec3(0.0, 0.0, -1.0)
    ensures Apply(RotZyxIntended(Zero, Zero, Quarter), Vec3(0.0, 1.0, 0.0)) == Vec3(0.0, 0.0, 1.0)
  {
    assert Quarter.c == 0.0 && Quarter.s == 1.0 && Zero.c == 1.0 && Zero.s == 0.0;
    assert RotZyx(Zero, Zero, Quarter)
      == Mat3(Vec3(1.0, 0.0, 0.0), Vec3(0.0, 0.0, 1.0), Vec3(0.0, -1.0, 0.0));
  }
}

=== FILE: wrappers.dfy ===
/** Optional values, used for Python's `None` and for "no match". */
module Wrappers {

  datatype Option<+T> = None | Some(value: T) {

    /** The wrapped value, or `default` when there is none. */
    function GetOr(default: T): T {
      match this
      case Some(v) => v
      case None => default
    }
  }
}
